=== FILE: README.md ===
# albiondata-client core, modelled in Dafny

The Albion Online Data client watches the game's network traffic. It puts
Photon reliable messages back together from their fragments and decodes each
message's parameters into typed values. Then it hands each recognised
operation to a handler. The handlers keep a little session state: the
player's location, the game server, and a ring of pending market-history
requests. From the traffic they build uploads: live market orders, market
histories, gold prices and map data. The uploads go out through a
proof-of-work HTTP uploader. A configuration layer picks which event and
operation codes are logged, whether anything is uploaded, the log level, and
how colour codes are removed from the log file.

This project models that core as pure Dafny functions and methods over
immutable data, one module per part of the program:

| module | file | models |
|---|---|---|
| `ParameterDecoder` | decoder.dfy | the Photon parameter decoder: fixed-width reads with `bytes.Buffer`/`binary.Read` semantics, every type tag, slices, dictionaries, in-band `"ERROR - ..."` values; plus an encoder it inverts |
| `Lru` | lru.dfy | the least-recently-used cache the fragment buffer relies on (`Get`, `Add`, `Remove`) |
| `FragmentBuffer` | fragment_buffer.dfy | `Offer`, `Finished`, `Make`, `NewFragmentBuffer`, and reassembly of whole groups |
| `AlbionState` | albion_state.dfy | the session state, the upload records, `IsValidLocation`, `GetServer` |
| `MarketHistory` | market_history.dfy | the item-average-stats request and response, with the stable newest-first sort |
| `MarketOrders` | market_orders.dfy | the offers request and response, with the rest and smugglers' den location rewrite, and the buy-requests response |
| `ClusterMap`, `GoldPrices` | cluster_map.dfy, gold_prices.dfy | the cluster-map and gold-price handlers |
| `MapData` | map_data.dfy | `MapDataUpload.StringArrays` |
| `ProofOfWork` | pow.dfy | hex and binary renderings, the challenge text, `solvePow`, the base-URL rewrite, the CPU limit |
| `ClientConfig` | config.dfy | debug event and operation selections, the offline override, the log level, the ANSI-stripping writer |
| `GoText` | go_text.dfy | the parts of Go's `strconv` and `strings` the core uses: `%d`, `Atoi`, `Split`, `ReplaceAll`, `HasPrefix`, `Contains` |
| `Wrappers` | wrappers.dfy | `Option` and `Result` |

A handler is a function from the state and the decoded operation to an
`Outcome`. The outcome is either the new state plus the upload published, if
any, or `Halted` when the Go code calls `log.Fatal` or panics.

Two points about the state:
- A location is `albionState`'s integer field `LocationId`
  (client/albion_state.go:20), and a location is valid when
  `LocationId >= 0` (client/albion_state.go:36-37).
- The offers handlers assign `WaitingForMarketData`
  (client/operation_auction_get_offers.go:26,35), so the model's state
  carries that flag as a field.

## Model

| member | source | states |
|---|---|---|
| ParameterDecoder.DecodeReliableMessage | vendor/github.com/ao-data/photon_spectator/decode_reliable_message.go:36-52 | the parameter map holds, for each id, the value of the last of the `count` triples read in wire order that carries that id; no more entries than the count, and none when the count is not positive |
| ParameterDecoder.ParameterList | vendor/github.com/ao-data/photon_spectator/decode_reliable_message.go:40-49 | the loop reads exactly `count` triples (none for a non-positive count), even from an exhausted buffer |
| ParameterDecoder.LastWins | vendor/github.com/ao-data/photon_spectator/decode_reliable_message.go:47-48 | assigning the pairs in turn yields a map whose keys are exactly the keys that occur |
| ParameterDecoder.LastWinsValue | vendor/github.com/ao-data/photon_spectator/decode_reliable_message.go:292-297 | a key's value in the map is the one carried by its last pair |
| ParameterDecoder.LastWinsSize | vendor/github.com/ao-data/photon_spectator/decode_reliable_message.go:292-297 | the map never has more entries than there were pairs |
| ParameterDecoder.Message | vendor/github.com/ao-data/photon_spectator/decode_reliable_message.go:71-101 | every decode error is stored as a string starting with "ERROR - " |
| ParameterDecoder.ReadField | vendor/github.com/ao-data/photon_spectator/decode_reliable_message.go:199-222 | a fixed-width read takes exactly n bytes when the buffer holds them; otherwise it yields zeros and leaves the buffer empty |
| ParameterDecoder.DecodeType | vendor/github.com/ao-data/photon_spectator/decode_reliable_message.go:54-102 | tags 42 and 0 give nil and read nothing; an unknown tag gives an "invalid type" error value and reads nothing; no tag reads past the buffer |
| ParameterDecoder.IntegerTags | vendor/github.com/ao-data/photon_spectator/decode_reliable_message.go:59-68 | each integer tag, including 7 read as int16, yields the signed big-endian integer of its width, or zero with the buffer drained when too few bytes remain |
| ParameterDecoder.ReadIntCases | vendor/github.com/ao-data/photon_spectator/decode_reliable_message.go:199-222 | the int8/16/32/64 readers: two's-complement value of the next n bytes, or zero and an empty buffer |
| ParameterDecoder.BooleanTag | vendor/github.com/ao-data/photon_spectator/decode_reliable_message.go:71-78 | byte 0 is false, byte 1 is true, any other byte becomes a "Boolean" error value; exactly one byte is consumed |
| ParameterDecoder.BooleanRead | vendor/github.com/ao-data/photon_spectator/decode_reliable_message.go:235-248 | the boolean reader reads exactly the first byte and rejects values other than 0 and 1 |
| ParameterDecoder.StringTag | vendor/github.com/ao-data/photon_spectator/decode_reliable_message.go:224-233 | a string always has its declared two-byte length; it is the following bytes when present, else what remains padded with zeros |
| ParameterDecoder.StringRead | vendor/github.com/ao-data/photon_spectator/decode_reliable_message.go:224-233 | a string the buffer covers is exactly the declared number of following bytes |
| ParameterDecoder.StringShort | vendor/github.com/ao-data/photon_spectator/decode_reliable_message.go:224-233 | a string the buffer cuts short is zero-padded and drains the buffer |
| ParameterDecoder.DecodeString | vendor/github.com/ao-data/photon_spectator/decode_reliable_message.go:224-233 | the string reader always yields a string and never reads past the buffer |
| ParameterDecoder.Int8SliceTag | vendor/github.com/ao-data/photon_spectator/decode_reliable_message.go:79-85 | an int8 slice with no length is an "EOF" error, with a partial length an "unexpected EOF" error, with a covered length exactly those bytes as signed numbers, and with an uncovered length an "EOF" error |
| ParameterDecoder.Int8SliceRead | vendor/github.com/ao-data/photon_spectator/decode_reliable_message.go:250-270 | a four-byte length n followed by n bytes reads as those n bytes taken as int8 |
| ParameterDecoder.SliceTag | vendor/github.com/ao-data/photon_spectator/decode_reliable_message.go:86-92 | an unhandled element tag becomes an "Invalid slice type" error value after three bytes; a decoded slice has the element tag and the count from its header |
| ParameterDecoder.DecodeSlice | vendor/github.com/ao-data/photon_spectator/decode_reliable_message.go:104-197 | a slice decode that succeeds yields a slice value and stays within the buffer |
| ParameterDecoder.DecodeItems | vendor/github.com/ao-data/photon_spectator/decode_reliable_message.go:111-193 | the element loop, when it succeeds, yields exactly the declared number of elements |
| ParameterDecoder.DictionaryTag | vendor/github.com/ao-data/photon_spectator/decode_reliable_message.go:93-99 | a dictionary with a cut-short header is an error value; otherwise exactly `count` pairs are read and each key keeps its last value |
| ParameterDecoder.DecodeDictionary | vendor/github.com/ao-data/photon_spectator/decode_reliable_message.go:272-300 | a dictionary decode that succeeds yields a dictionary value |
| ParameterDecoder.DecodeEntries | vendor/github.com/ao-data/photon_spectator/decode_reliable_message.go:292-297 | the dictionary loop reads exactly `count` pairs |
| ParameterDecoder.RoundTrip | vendor/github.com/ao-data/photon_spectator/decode_reliable_message.go:54-197 | decoding the wire form of any encodable value other than a dictionary or an error value, under its own tag, gives the value back and leaves the following bytes untouched; dictionaries have their own round trip below |
| ParameterDecoder.ScalarRoundTrip | vendor/github.com/ao-data/photon_spectator/decode_reliable_message.go:59-78 | the same for integers, floats, booleans and strings |
| ParameterDecoder.IntTagRoundTrip | vendor/github.com/ao-data/photon_spectator/decode_reliable_message.go:59-68 | an integer written big-endian in two's complement reads back under its tag |
| ParameterDecoder.IntRoundTrip | vendor/github.com/ao-data/photon_spectator/decode_reliable_message.go:199-222 | an in-range integer written in n bytes reads back as itself |
| ParameterDecoder.StringRoundTrip | vendor/github.com/ao-data/photon_spectator/decode_reliable_message.go:224-233 | a length-prefixed byte string reads back as itself |
| ParameterDecoder.Int8SliceRoundTrip | vendor/github.com/ao-data/photon_spectator/decode_reliable_message.go:250-270 | a length-prefixed run of int8 values reads back as itself |
| ParameterDecoder.SignedBytesRoundTrip | vendor/github.com/ao-data/photon_spectator/decode_reliable_message.go:260-266 | int8 values written as bytes read back as the same values |
| ParameterDecoder.SliceRoundTrip | vendor/github.com/ao-data/photon_spectator/decode_reliable_message.go:104-197 | a slice, nested slices included, reads back as itself |
| ParameterDecoder.SliceFraming | vendor/github.com/ao-data/photon_spectator/decode_reliable_message.go:105-111 | a slice header is a two-byte count and one element tag |
| ParameterDecoder.ItemsRoundTrip | vendor/github.com/ao-data/photon_spectator/decode_reliable_message.go:111-193 | the elements of a slice read back in order |
| ParameterDecoder.ElementRoundTrip | vendor/github.com/ao-data/photon_spectator/decode_reliable_message.go:111-193 | each kind of slice element reads back as itself |
| ParameterDecoder.EntriesRoundTrip | vendor/github.com/ao-data/photon_spectator/decode_reliable_message.go:292-297 | key/value pairs written one after another, every key under one tag and every value under another, read back as the same pairs in the same order |
| ParameterDecoder.DictionaryRoundTrip | vendor/github.com/ao-data/photon_spectator/decode_reliable_message.go:272-300 | a dictionary written as key tag, value tag, two-byte count and pairs decodes to the map its pairs build when assigned in order (with distinct keys, each key maps to its value), leaving the following bytes untouched |
| FragmentBuffer.NewFragmentBuffer | vendor/github.com/ao-data/photon-spectator/fragment_buffer.go:65-70 | a new buffer holds no group and meets the cache invariant |
| FragmentBuffer.Offer | vendor/github.com/ao-data/photon-spectator/fragment_buffer.go:17-38 | the piece is filed under its index in the stored group, or starts a group counted by this fragment; a command carrying the pieces joined in index order comes out exactly when the distinct indices reach the count, and the group then leaves the cache; otherwise the group is stored; every other group is kept, except that storing a new group in a full cache evicts exactly the least recently used one; the cache never holds more than 128 groups |
| FragmentBuffer.StoreFrame | vendor/github.com/ao-data/photon-spectator/fragment_buffer.go:20-35 | looking a group up and then storing it keeps every other group, unless the group is new and the cache holds 128 groups; then only the least recently used group is dropped |
| FragmentBuffer.RedeliveryKeepsCount | vendor/github.com/ao-data/photon-spectator/fragment_buffer.go:20-22 | a repeated index replaces its piece without moving the group closer to completion |
| FragmentBuffer.MissingPieceIsEmpty | vendor/github.com/ao-data/photon-spectator/fragment_buffer.go:50-56 | an index never received contributes nothing to the command, as Go's nil slice does |
| FragmentBuffer.OutOfRangeIgnored | vendor/github.com/ao-data/photon-spectator/fragment_buffer.go:53-55 | pieces filed under negative indices or indices at or past the count never reach the command |
| FragmentBuffer.AssembleInOrder | vendor/github.com/ao-data/photon-spectator/fragment_buffer.go:50-62 | when every index below the count holds its piece, the command's data is the pieces in index order |
| FragmentBuffer.Extend | vendor/github.com/ao-data/photon-spectator/fragment_buffer.go:17-38 | offering one more fragment to the last state extends a run of offers |
| FragmentBuffer.Replay | vendor/github.com/ao-data/photon-spectator/fragment_buffer.go:17-38 | offering fragments one after another gives a run: each state and result is the offer of the next fragment to the state before |
| FragmentBuffer.Fragments | vendor/github.com/ao-data/photon-spectator/fragment_buffer.go:40-44 | the k-th fragment sent carries the group's sequence number, its count and the piece of the k-th index of the order |
| FragmentBuffer.FullAssembly | vendor/github.com/ao-data/photon-spectator/fragment_buffer.go:50-55 | once every fragment is in, whatever the arrival order, the joined data is the pieces in index order |
| FragmentBuffer.OfferNext | vendor/github.com/ao-data/photon-spectator/fragment_buffer.go:17-38 | one more distinct fragment of a group finishes it exactly when it is the last; before that the cache holds the pieces so far |
| FragmentBuffer.OfferPrefix | vendor/github.com/ao-data/photon-spectator/fragment_buffer.go:17-38 | along any arrival order, no command comes out before the last fragment, and the cache holds the pieces received so far |
| FragmentBuffer.CompleteGroup | vendor/github.com/ao-data/photon-spectator/fragment_buffer.go:17-62 | the fragments of one group, in any order, yield nothing until the last, which yields the SendReliable command with the pieces in index order and clears the group |
| FragmentBuffer.ReplayCompletesGroup | vendor/github.com/ao-data/photon-spectator/fragment_buffer.go:17-62 | the same for the states and results of offering the fragments in turn |
| Lru.Get | vendor/github.com/ao-data/photon-spectator/fragment_buffer.go:20-21 | the lookup returns what is stored under the key and, on a hit, marks it most recently used without changing any stored value; a miss leaves the cache as it was |
| Lru.Add | vendor/github.com/ao-data/photon-spectator/fragment_buffer.go:35 | the key then maps to the value and is most recently used; other keys keep their values, except that a new key in a full cache evicts the least recently used one; the capacity is never exceeded |
| Lru.Remove | vendor/github.com/ao-data/photon-spectator/fragment_buffer.go:32 | the key is gone and every other key keeps its value |
| AlbionState.IsValidLocation | client/albion_state.go:36-52 | a location is valid exactly when it is not negative; in particular -1, the location not yet seen, is invalid |
| AlbionState.GetServer | client/albion_state.go:54-94 | a west, east or europe game-server address selects server 1, 2 or 3 and its ingest URL; any other address keeps the stored id and URL |
| AlbionState.KnownRangesDisjoint | client/albion_state.go:69-85 | no address lies in two of the known ranges, so the order of the tests does not matter |
| MarketHistory.RequestSlot | client/operation_auction_get_item_average_stats.go:21 | the request's slot is congruent to its unsigned message id and lies inside the ring |
| MarketHistory.FixItemId | client/operation_auction_get_item_average_stats.go:27-32 | item ids -128 .. -1 are shifted up by 256 into 128 .. 255; every other id is kept |
| MarketHistory.ProcessRequest | client/operation_auction_get_item_average_stats.go:20-42 | the request writes the fixed item id, timescale and quality into its slot and changes nothing else |
| MarketHistory.ResponseSlot | client/operation_auction_get_item_average_stats.go:52 | Go's truncating `%` on a signed id: the slot is congruent to the id, and negative exactly for a negative id that is not a multiple of the ring size |
| MarketHistory.ResponseFindsRequestSlot | client/operation_auction_get_item_average_stats.go:21-52 | a response with the request's id reads the slot the request wrote |
| MarketHistory.FixAmount | client/operation_auction_get_item_average_stats.go:86-97 | amounts below -124 are dropped; -124 .. -1 become 132 .. 255; non-negative amounts are kept |
| MarketHistory.CollectContents | client/operation_auction_get_item_average_stats.go:85-103 | a history is collected exactly when some entry keeps its amount after the fix and carries its silver amount and timestamp |
| MarketHistory.CollectEmpty | client/operation_auction_get_item_average_stats.go:85-108 | no history is collected exactly when every amount is below -124 |
| MarketHistory.InsertPermutes | client/operation_auction_get_item_average_stats.go:110-113 | an insertion step loses and duplicates nothing |
| MarketHistory.InsertSorted | client/operation_auction_get_item_average_stats.go:110-113 | inserting into a newest-first sequence keeps it newest first |
| MarketHistory.InsertKeepsOrder | client/operation_auction_get_item_average_stats.go:110-113 | an insertion step keeps each timestamp's entries in their order |
| MarketHistory.SortSortsAndPermutes | client/operation_auction_get_item_average_stats.go:110-113 | the sort output is newest first and a permutation of its input |
| MarketHistory.SortIsStable | client/operation_auction_get_item_average_stats.go:110-113 | for every timestamp, its entries come out in their input order, as `sort.SliceStable` promises |
| MarketHistory.ProcessResponse | client/operation_auction_get_item_average_stats.go:51-126 | a negative slot panics; an empty slot changes nothing; otherwise the slot's item id is cleared; an invalid location stops there; at a valid location with a filled slot, it panics exactly when there are item amounts and the silver or time array is shorter, even if every amount would be dropped; an upload carries the slot's item, quality and timescale, the state's location, and non-negative amounts newest first; no upload means every amount was below -124 |
| MarketHistory.UploadedHistories | client/operation_auction_get_item_average_stats.go:82-121 | the uploaded histories are the collected ones, reordered, with equal timestamps in array order |
| MarketHistory.RequestThenResponse | client/operation_auction_get_item_average_stats.go:20-126 | a request followed by its response at a valid location, with a usable amount, uploads the request's item, quality and timescale and clears the slot |
| MarketOrders.ProcessOffersRequest | client/operation_auction_get_offers.go:24-27 | the request only records that market data is awaited |
| MarketOrders.ProcessOffersResponse | client/operation_auction_get_offers.go:33-101 | the waiting flag is cleared; at a valid location an order text that does not decode into a map (neither a JSON object nor null) ends the process; otherwise one order per text is uploaded, each converted, exactly when the location is valid and texts arrived |
| MarketOrders.ConvertOffer | client/operation_auction_get_offers.go:51-85 | an order keeps its other fields and takes its own location when that is not 0, else the player's |
| MarketOrders.NormalizeLocation | client/operation_auction_get_offers.go:55-65 | the location read from the text after the first `@` is always a 64-bit number |
| MarketOrders.SplitAtLeastTwo | client/operation_auction_get_offers.go:55-57 | text holding `@` splits into at least two pieces, so the second piece exists |
| MarketOrders.SecondPiece | client/operation_auction_get_offers.go:57 | the second piece is the text between the first and the second `@` |
| MarketOrders.NormalizeRest | client/operation_auction_get_offers.go:55-65 | a rest location `prefix@n` reads as the number n |
| MarketOrders.NormalizeDen | client/operation_auction_get_offers.go:59-65 | a smugglers' den location `prefix@BLACKBANK-n` reads as the number n |
| MarketOrders.UnreadableDenFallsBack | client/operation_auction_get_offers.go:60-85 | a rest or den location whose text after `@`, with `BLACKBANK-` removed, is not a number takes the player's location, except when the digits before the first bad character overflow 64 bits: then the order keeps MaxInt64, or MinInt64 after a minus sign |
| MarketOrders.ProcessRequestsResponse | client/operation_auction_get_requests.go:15-47 | the state is unchanged; at a valid location every text becomes one order carrying the player's location; there is no upload when the location is invalid or no texts arrived |
| ClusterMap.ProcessRequest | client/operation_get_cluster_map_info.go:14-16 | the request changes nothing and uploads nothing |
| ClusterMap.ProcessResponse | client/operation_get_cluster_map_info.go:32-58 | map data is uploaded exactly when the zone id parses as an integer, with that number and every array copied |
| ClusterMap.DecimalZoneUploads | client/operation_get_cluster_map_info.go:35-53 | a zone id written in decimal is uploaded as that number |
| ClusterMap.NamedZoneSkipped | client/operation_get_cluster_map_info.go:35-39 | a zone id with a non-digit character (apart from a leading sign) uploads nothing |
| GoldPrices.ProcessRequest | client/operation_gold_market_get_average_info.go:12-14 | the request changes nothing and uploads nothing |
| GoldPrices.ProcessResponse | client/operation_gold_market_get_average_info.go:21-32 | the response always uploads exactly its prices and timestamps and leaves the state alone |
| MapData.StringArrays | lib/map.go:20-34 | one six-column row per building: zone id, building type, food, reward and silver in decimal, then the owner |
| MapData.RowParsesBack | lib/map.go:20-34 | every number column of a row reads back with `Atoi` as the number it came from |
| ProofOfWork.HexEncode | client/uploader_http_pow.go:117-123 | hex encoding doubles the length and uses only lower-case hex digits |
| ProofOfWork.HexRoundTrip | client/uploader_http_pow.go:117-123 | decoding the hex of some bytes gives the bytes back |
| ProofOfWork.Bits | client/uploader_http_pow.go:129 | `%08b` renders a byte as exactly eight binary digits |
| ProofOfWork.BitsRoundTrip | client/uploader_http_pow.go:129 | the eight digits read back as the byte |
| ProofOfWork.ToBinaryBytes | client/uploader_http_pow.go:126-132 | the rendering has eight binary digits per input byte |
| ProofOfWork.BinaryDigitAt | client/uploader_http_pow.go:126-132 | digit k of byte i's block is bit 7 - k of that byte |
| ProofOfWork.BinaryBlocks | client/uploader_http_pow.go:126-132 | each byte is rendered as its own eight digits, in input order |
| ProofOfWork.BinaryRoundTrip | client/uploader_http_pow.go:126-132 | the binary rendering loses nothing |
| ProofOfWork.Challenge | client/uploader_http_pow.go:142-146 | the hashed text is "aod^", the nonce, "^", then the key |
| ProofOfWork.ChallengeInjective | client/uploader_http_pow.go:142-146 | with a hex nonce, the challenge text determines both the nonce and the key |
| ProofOfWork.WriteBits | client/uploader_http_pow.go:151-163 | the inner loop writes one hex character's bits, most significant first, stopping at the wanted length, and keeps what came before |
| ProofOfWork.BitPrefix | client/uploader_http_pow.go:150-167 | the bit loop fills the first `len(wanted)` cells with exactly the binary rendering of the hex digest |
| ProofOfWork.SolvePow | client/uploader_http_pow.go:137-172 | the answer is the first attempt whose hex nonce gives an accepted hash prefix; without one no attempt is accepted; a wanted prefix longer than 512 bits panics |
| ProofOfWork.RewritePlainUrl | client/uploader_http_pow.go:42-43 | a URL without a `+` is left alone |
| ProofOfWork.RewriteHttpsPow | client/uploader_http_pow.go:42-43 | an `https+pow` URL becomes plain `https` |
| ProofOfWork.RewriteHttpPow | client/uploader_http_pow.go:42-43 | an `http+pow` URL becomes plain `http` |
| ProofOfWork.Procs | client/uploader_http_pow.go:33-40 | without the no-limit flag the process uses a quarter of the CPUs, at least one; with it nothing is set |
| ClientConfig.MarkAll | client/config.go:314-318 | exactly the codes some piece parses to are set to the flag; every other code keeps its entry |
| ClientConfig.ApplyList | client/config.go:313-320 | a comma-separated list sets the codes it names to the flag and keeps the rest |
| ClientConfig.DebugSelection | client/config.go:311-328 | the selection holds exactly the codes named on either list; a code is true exactly when it is not blacklisted; two empty lists select nothing; the operation selection (lines 341-359) is built by the same rules |
| ClientConfig.BlacklistWins | client/config.go:321-328 | a code on both lists ends up false; one only on the whitelist ends up true |
| ClientConfig.EntryWithSpaceSkipped | client/config.go:314-318 | a list entry holding a space, as in "1, 2", is skipped |
| ClientConfig.SingleCodeListed | client/config.go:313-318 | a code's decimal form, alone in a list, names that code |
| ClientConfig.ApplyOfflinePath | client/config.go:88-98 | an offline path turns on offline mode and disables uploads unless the public ingest is the local development URL; no path changes nothing |
| ClientConfig.ChooseLogLevel | client/config.go:247-253 | trace overrides debug, which overrides the configured level |
| ClientConfig.ParamRun | client/config.go:36 | the run of `[0-9;]` bytes extends as far as such bytes go |
| ClientConfig.SequenceAt | client/config.go:36 | a matched sequence is ESC, `[`, parameter bytes, then `m` |
| ClientConfig.Write | client/config.go:40-45 | the writer reports the full input length and passes on the stripped bytes |
| ClientConfig.StripPlain | client/config.go:36-41 | text without an escape byte passes through unchanged |
| ClientConfig.StripKeepsPlainPrefix | client/config.go:36-41 | escape-free text before anything is kept as is |
| ClientConfig.StripSequence | client/config.go:36-41 | a leading colour sequence is removed whole |
| ClientConfig.StripColouredText | client/config.go:36-41 | coloured text followed by a reset comes out as the bare text |
| GoText.FormatInt | lib/map.go:24-28 | `%d` writes a minus sign exactly for negative numbers, then only digits |
| GoText.FormatNat | lib/map.go:24-28 | the digits of a number have no leading zero |
| GoText.Atoi | client/operation_get_cluster_map_info.go:35-39 | a parse succeeds only on an optional sign followed by digits and is negative only after a minus sign; an empty or non-numeric text fails with 0, except that digits overflowing uint64 before the first bad character fail with the int64 bound on the side of the sign |
| GoText.AtoiFormatInt | client/operation_get_cluster_map_info.go:35 | `Atoi` reads back every 64-bit number `%d` wrote |
| GoText.AtoiRejectsStrayCharacter | client/operation_get_cluster_map_info.go:35-39 | a character other than a digit or a leading sign makes the parse fail, and within the first 20 characters the value is 0 |
| GoText.AtoiOverflowBeforeStray | client/operation_auction_get_offers.go:65 | digits beyond the uint64 range followed by a bad character parse as MaxInt64, or MinInt64 after a minus sign, with the error flag set |
| GoText.Split | client/operation_auction_get_offers.go:57 | the pieces hold no separator, number one more than the separators, and joined with the separator give the text back |
| GoText.SplitAt | client/operation_auction_get_offers.go:57 | the first piece is the text before the first separator |
| GoText.ReplaceAllAbsent | client/operation_auction_get_offers.go:60-62 | text without the pattern is left unchanged |
| GoText.ReplaceAllKeepsClearPrefix | client/operation_auction_get_offers.go:60-62 | text before the first occurrence is kept and the rest is rewritten |

## Left out

- Network capture, Photon framing, and the dispatch from operation codes to handlers. The handlers take already-decoded operations.
- JSON. An order text is abstracted as a `RawOrder`: whether it decodes into a map, its `LocationId` member, the `LocationID` a decode into `lib.MarketOrder` leaves, and the other fields kept as opaque text. The re-marshalling of rewritten orders is not modelled.
- Logging, desktop notifications and identifiers (`uuid.NewV4`). None of them changes an outcome.
- Sending to the uploaders. The model returns the upload record and the ingest topic instead of publishing it.
- MarketHistory.ProcessResponse: the 30-second wait for the matching request is not modelled. The model checks the slot once, as the code does after its wait, because the wait is a clock and the request arrives through another handler.
- The proof-of-work HTTP calls (`getPow`, `uploadWithPow`, `sendToIngest`) are network I/O.
- SHA-256 is a function parameter of `SolvePow`.
- The random bytes from `crypto/rand` are a supplied sequence of attempts.
- ProofOfWork.SolvePow: Go loops until an attempt succeeds. The model stops after the attempts supplied and reports `OutOfAttempts`.
- ProofOfWork.Procs computes the process count. It does not set `GOMAXPROCS`, which is a runtime side effect.
- ProofOfWork.BitPrefix: the Go code reuses one `[512]byte` buffer across attempts. Cells past the wanted length are never compared, so the model starts from a zero buffer each time.
- ClientConfig: flag and viper parsing, log-file rotation and opening, and `logrus.ParseLevel` are I/O or library code. ChooseLogLevel returns the level name only.
- ClientConfig.Write: the underlying writer is not modelled, so its error is not returned.
- ParameterDecoder: float32 values are kept as their four raw bytes.
- ParameterDecoder.DictionaryRoundTrip: keys and values are encodable non-dictionary values, so a dictionary nested inside another dictionary has no stated round trip.
- ParameterDecoder.DecodeDictionary: Go panics when a key is unhashable, for example a slice. The model does not; its dictionary keys are values of any kind. Because a float32 is four raw bytes here, float keys also merge by their bytes: Go's map compares them as IEEE values, so +0 and -0 share one entry and every NaN key is a separate entry, while the model keeps +0 and -0 apart and merges NaN keys with the same bytes.
- ParameterDecoder: a failed value is kept as a structured `Fault` rather than as its string; `Message` renders the string Go stores. A Go dictionary would treat such a string and an equal plain string key as one key; the model keeps them apart.
- ParameterDecoder.DecodeParameter, ParameterDecoder.ReadFloat32, ParameterDecoder.DecodeElement: their own contracts bound only the bytes consumed; the exact results are stated in the per-tag lemmas and the round trips.
- The LRU cache is a library that is not part of this model. Lru gives it the behaviour the fragment buffer relies on.
- FragmentBuffer: the int32 width of sequence and fragment numbers is not modelled; they are unbounded integers.
- GoText.Atoi: the model returns a value and an ok flag. It does not tell Go's range error from its syntax error; the value and the flag match Go's in every case, including a digit run that overflows before a bad character.
- MapData.StringArrays: Go indexes the parallel arrays without a check and panics when one is shorter than `BuildingType`. The model requires them to be long enough (`RowsReadable`) instead of modelling the panic.
- Go integer widths in records (int32 item ids, uint8 quality, uint64 amounts and timestamps) are not enforced. Values are unbounded integers, except where the code relies on a width: the unsigned and signed message ids, and `FixItemId` and `FixAmount`.

=== FILE: albion_state.dfy ===
/**
 * The client's session state (`albionState`), the records the operation
 * handlers hand to the uploaders, and the two queries on the state:
 * `IsValidLocation` and `GetServer`.
 *
 * Every handler is modelled as a pure function from the state (and the
 * decoded operation) to an `Outcome`: the new state plus the upload it
 * publishes, if any, or `Halted` when the Go code ends the process
 * (`log.Fatal`) or panics.
 */
module AlbionState {
  import opened Wrappers
  import GoText
  import MapData

  /** Number of slots in the market-history lookup ring. */
  const CacheSize: nat := 8192

  /** What a market-history request leaves in its slot for the response. */
  datatype MarketHistoryInfo = MarketHistoryInfo(albionId: int, timescale: int, quality: int)

  /**
   * `albionState`. The character id is kept as text. `waitingForMarketData`
   * is set by the market-offers handlers; `historyLookup` is the ring of
   * `CacheSize` market-history slots.
   */
  datatype State = State(
    locationId: int,
    locationString: string,
    characterId: string,
    characterName: string,
    gameServerIP: string,
    serverId: int,
    ingestBaseUrl: string,
    waitingForMarketData: bool,
    historyLookup: seq<MarketHistoryInfo>)

  /** The lookup ring has exactly `CacheSize` slots, as the Go array type fixes. */
  predicate WellFormed(s: State) {
    |s.historyLookup| == CacheSize
  }

  /** `lib.MarketOrder`: its location, and every other field carried as-is. */
  datatype MarketOrder = MarketOrder(locationId: int, details: string)

  /** `lib.MarketHistory`. */
  datatype MarketHistory = MarketHistory(itemAmount: int, silverAmount: int, timestamp: int)

  /** An upload, named after the ingest topic it is published on. */
  datatype Upload =
    | MarketOrdersIngest(orders: seq<MarketOrder>)
    | MarketHistoriesIngest(albionId: int, locationId: int, qualityLevel: int, timescale: int,
                            histories: seq<MarketHistory>)
    | GoldPricesIngest(prices: seq<int>, timeStamps: seq<int>)
    | MapDataIngest(mapData: MapData.MapDataUpload)

  /** What handling one operation leads to. */
  datatype Outcome =
    | Outcome(state: State, upload: Option<Upload>)
    | Halted

  /**
   * `IsValidLocation`: a location id of -1 (not yet known) or any other
   * negative id is invalid; the log and notification texts are not modelled.
   */
  function IsValidLocation(s: State): (valid: bool)
    ensures valid <==> s.locationId >= 0
    ensures s.locationId == -1 ==> !valid
  {
    s.locationId >= 0
  }

  const WestPrefix: string := "5.188.125."
  const EastPrefix: string := "5.45.187."
  const EuropePrefix: string := "193.169.238."
  const WestIngest: string := "http+pow://pow.west.albion-online-data.com"
  const EastIngest: string := "http+pow://pow.east.albion-online-data.com"
  const EuropeIngest: string := "http+pow://pow.europe.albion-online-data.com"

  /** The game-server address lies in one of the three known Albion ranges. */
  predicate IsAlbionIP(ip: string) {
    GoText.HasPrefix(ip, WestPrefix) || GoText.HasPrefix(ip, EastPrefix) || GoText.HasPrefix(ip, EuropePrefix)
  }

  /** No address lies in two of the known ranges, so the order of the tests is immaterial. */
  lemma KnownRangesDisjoint(ip: string)
    ensures !(GoText.HasPrefix(ip, WestPrefix) && GoText.HasPrefix(ip, EastPrefix))
    ensures !(GoText.HasPrefix(ip, WestPrefix) && GoText.HasPrefix(ip, EuropePrefix))
    ensures !(GoText.HasPrefix(ip, EastPrefix) && GoText.HasPrefix(ip, EuropePrefix))
  {
    if GoText.HasPrefix(ip, WestPrefix) {
      assert ip[2] == WestPrefix[2] == '1' && ip[0] == '5';
    }
    if GoText.HasPrefix(ip, EastPrefix) {
      assert ip[2] == EastPrefix[2] == '4' && ip[0] == '5';
    }
    if GoText.HasPrefix(ip, EuropePrefix) {
      assert ip[0] == EuropePrefix[0] == '1';
    }
  }

  /**
   * `GetServer`: the server id and ingest URL. A game server in a known
   * range decides both; otherwise the values stored in the state stand (a
   * stored 0 and "" are what Go starts from anyway).
   */
  function GetServer(s: State): (r: (int, string))
    ensures GoText.HasPrefix(s.gameServerIP, WestPrefix) ==> r == (1, WestIngest)
    ensures GoText.HasPrefix(s.gameServerIP, EastPrefix) ==> r == (2, EastIngest)
    ensures GoText.HasPrefix(s.gameServerIP, EuropePrefix) ==> r == (3, EuropeIngest)
    ensures !IsAlbionIP(s.gameServerIP) ==> r == (s.serverId, s.ingestBaseUrl)
  {
    KnownRangesDisjoint(s.gameServerIP);
    if GoText.HasPrefix(s.gameServerIP, WestPrefix) then (1, WestIngest)
    else if GoText.HasPrefix(s.gameServerIP, EastPrefix) then (2, EastIngest)
    else if GoText.HasPrefix(s.gameServerIP, EuropePrefix) then (3, EuropeIngest)
    else (s.serverId, s.ingestBaseUrl)
  }
}

=== FILE: cluster_map.dfy ===
/**
 * Cluster map information (`GetClusterMapInfo`): the request does nothing;
 * the response uploads the map data of a zone whose id is a decimal number.
 */
module ClusterMap {
  import opened Wrappers
  import GoText
  import MapData
  import opened AlbionState

  /** The decoded response: the zone id as text and the per-building arrays. */
  datatype ClusterMapResponse = ClusterMapResponse(
    zoneId: string,
    buildingType: seq<int>,
    availableFood: seq<int>,
    reward: seq<int>,
    availableSilver: seq<int>,
    owners: seq<string>,
    publicFee: seq<int>,
    associateFee: seq<int>,
    coordinates: seq<seq<int>>,
    durability: seq<int>,
    permission: seq<int>)

  /** The request handler leaves the state alone and uploads nothing. */
  function ProcessRequest(s: State): (r: Outcome)
    ensures r.Outcome? && r.state == s && r.upload.None?
  {
    Outcome(s, None)
  }

  /**
   * The response handler: a zone id that `strconv.Atoi` rejects (an instance,
   * say) means no upload; otherwise the upload carries the parsed zone id and
   * all ten arrays unchanged. The state is never changed and the player's
   * location is not consulted.
   */
  function ProcessResponse(s: State, op: ClusterMapResponse): (r: Outcome)
    ensures r.Outcome? && r.state == s
    ensures r.upload.Some? <==> GoText.Atoi(op.zoneId).ok
    ensures r.upload.Some? ==>
      r.upload.value.MapDataIngest?
      && var m := r.upload.value.mapData;
      m.zoneId == GoText.Atoi(op.zoneId).value
      && m.buildingType == op.buildingType && m.availableFood == op.availableFood
      && m.reward == op.reward && m.availableSilver == op.availableSilver
      && m.owners == op.owners && m.publicFee == op.publicFee && m.associateFee == op.associateFee
      && m.coordinates == op.coordinates && m.durability == op.durability && m.permission == op.permission
  {
    var zone := GoText.Atoi(op.zoneId);
    if !zone.ok then Outcome(s, None)
    else
      var upload := MapData.MapDataUpload(
        zone.value, op.buildingType, op.availableFood, op.reward, op.availableSilver, op.owners,
        op.publicFee, op.associateFee, op.coordinates, op.durability, op.permission);
      Outcome(s, Some(MapDataIngest(upload)))
  }

  /** A zone id written in decimal is uploaded as that number, whatever the player's location. */
  lemma DecimalZoneUploads(s: State, op: ClusterMapResponse, zone: int)
    requires GoText.MinInt64 <= zone <= GoText.MaxInt64 && op.zoneId == GoText.FormatInt(zone)
    ensures ProcessResponse(s, op).upload.Some?
    ensures ProcessResponse(s, op).upload.value.mapData.zoneId == zone
  {
    GoText.AtoiFormatInt(zone);
  }

  /** A zone id with a character other than a digit (past an optional leading sign) uploads nothing. */
  lemma NamedZoneSkipped(s: State, op: ClusterMapResponse, i: nat)
    requires i < |op.zoneId| && !GoText.IsDigit(op.zoneId[i]) && !(i == 0 && GoText.IsSign(op.zoneId[i]))
    ensures ProcessResponse(s, op) == Outcome(s, None)
  {
    GoText.AtoiRejectsStrayCharacter(op.zoneId, i);
  }
}

=== FILE: config.dfy ===
/**
 * The pure parts of the client's configuration: the debug selections of
 * event and operation codes, the offline override of the upload switch, the
 * choice of log level, and the writer that strips ANSI colour codes from the
 * log file.
 */
module ClientConfig {
  import GoText

  /** The configuration fields these steps read and write. */
  datatype Config = Config(
    debug: bool,
    trace: bool,
    logLevel: string,
    debugEventsString: string,
    debugEventsBlacklistString: string,
    debugOperationsString: string,
    debugOperationsBlacklistString: string,
    offlinePath: string,
    offline: bool,
    disableUpload: bool,
    publicIngestBaseUrls: string)

  /** The log level the global configuration starts with. */
  const DefaultLogLevel: string := "INFO"

  // ---------------------------------------------------------------------------
  // Debug selections (`setupDebugEvents`, `setupDebugOperations`)
  // ---------------------------------------------------------------------------

  /** Some piece parses, with `strconv.Atoi`, to `k`. */
  predicate Listed(pieces: seq<string>, k: int) {
    exists i :: 0 <= i < |pieces| && GoText.Atoi(pieces[i]) == GoText.Parsed(k, true)
  }

  /** `k` is named by the comma-separated list `list`. */
  predicate ListedIn(list: string, k: int) {
    list != "" && Listed(GoText.Split(list, ','), k)
  }

  /** Every piece that parses as an integer sets that code to `flag`; other pieces are skipped. */
  function MarkAll(m: map<int, bool>, pieces: seq<string>, flag: bool): (r: map<int, bool>)
    ensures forall k :: k in r <==> k in m || Listed(pieces, k)
    ensures forall k :: k in r ==> r[k] == if Listed(pieces, k) then flag else m[k]
    decreases |pieces|
  {
    if |pieces| == 0 then m
    else
      var parsed := GoText.Atoi(pieces[0]);
      var marked := if parsed.ok then m[parsed.value := flag] else m;
      var r := MarkAll(marked, pieces[1..], flag);
      assert forall k :: Listed(pieces, k) <==>
        (parsed.ok && parsed.value == k) || Listed(pieces[1..], k) by {
        forall k
          ensures Listed(pieces, k) <==> (parsed.ok && parsed.value == k) || Listed(pieces[1..], k)
        {
          if Listed(pieces, k) {
            var i :| 0 <= i < |pieces| && GoText.Atoi(pieces[i]) == GoText.Parsed(k, true);
            if i > 0 {
              assert pieces[1..][i - 1] == pieces[i];
            }
          }
          if Listed(pieces[1..], k) {
            var i :| 0 <= i < |pieces[1..]| && GoText.Atoi(pieces[1..][i]) == GoText.Parsed(k, true);
            assert pieces[i + 1] == pieces[1..][i];
          }
        }
      }
      r
  }

  /** A non-empty list marks the codes it names with `flag`. */
  function ApplyList(m: map<int, bool>, list: string, flag: bool): (r: map<int, bool>)
    ensures forall k :: k in r <==> k in m || ListedIn(list, k)
    ensures forall k :: k in r ==> r[k] == if ListedIn(list, k) then flag else m[k]
  {
    if list != "" then MarkAll(m, GoText.Split(list, ','), flag) else m
  }

  /**
   * The debug selection built from a whitelist and a blacklist: exactly the
   * codes either list names are present, and a code is shown (true) exactly
   * when the blacklist does not name it, because the blacklist is applied
   * second. Two empty lists select nothing.
   */
  function DebugSelection(whitelist: string, blacklist: string): (r: map<int, bool>)
    ensures forall k :: k in r <==> ListedIn(whitelist, k) || ListedIn(blacklist, k)
    ensures forall k :: k in r ==> (r[k] <==> !ListedIn(blacklist, k))
    ensures whitelist == "" && blacklist == "" ==> r == map[]
  {
    ApplyList(ApplyList(map[], whitelist, true), blacklist, false)
  }

  /** A list entry with a space in it (such as " 2" in "1, 2") is skipped. */
  lemma EntryWithSpaceSkipped(piece: string, i: nat)
    requires i < |piece| && piece[i] == ' '
    ensures !GoText.Atoi(piece).ok
  {
    GoText.AtoiRejectsStrayCharacter(piece, i);
  }

  /** A code listed on both lists ends up false; one on the whitelist only ends up true. */
  lemma BlacklistWins(whitelist: string, blacklist: string, k: int)
    requires ListedIn(whitelist, k)
    ensures k in DebugSelection(whitelist, blacklist)
    ensures DebugSelection(whitelist, blacklist)[k] == !ListedIn(blacklist, k)
  {
  }

  /** The decimal form of a code, alone in a list, names exactly that code. */
  lemma SingleCodeListed(k: int)
    requires GoText.MinInt64 <= k <= GoText.MaxInt64
    ensures ListedIn(GoText.FormatInt(k), k)
  {
    var s := GoText.FormatInt(k);
    GoText.AtoiFormatInt(k);
    assert ',' !in s by {
      if k < 0 {
        assert s == "-" + GoText.FormatNat(-k);
        assert forall i :: 0 <= i < |s| ==> s[i] == '-' || GoText.IsDigit(s[i]);
      }
    }
    assert GoText.Split(s, ',') == [s];
  }

  // ---------------------------------------------------------------------------
  // Offline mode and log level
  // ---------------------------------------------------------------------------

  /** The local development ingest, which an offline replay may still upload to. */
  const LocalIngest: string := "http+pow://west.aodp.local:3000"

  /**
   * The offline branch of `SetupFlags`: a non-empty offline path turns on
   * offline mode and turns uploading off, unless the public ingest URL is the
   * local development server, in which case uploading is turned on. Without
   * an offline path nothing changes.
   */
  function ApplyOfflinePath(c: Config): (r: Config)
    ensures c.offlinePath == "" ==> r == c
    ensures c.offlinePath != "" ==> r.offline && (r.disableUpload <==> c.publicIngestBaseUrls != LocalIngest)
    ensures r == c.(offline := r.offline, disableUpload := r.disableUpload)
  {
    if c.offlinePath != "" then
      var offline := c.(offline := true, disableUpload := true);
      if offline.publicIngestBaseUrls == LocalIngest then offline.(disableUpload := false) else offline
    else c
  }

  /** `setupLogs`' level: Trace overrides Debug, which overrides the configured level. */
  function ChooseLogLevel(c: Config): (level: string)
    ensures c.trace ==> level == "TRACE"
    ensures !c.trace && c.debug ==> level == "DEBUG"
    ensures !c.trace && !c.debug ==> level == c.logLevel
  {
    var level := if c.debug then "DEBUG" else c.logLevel;
    if c.trace then "TRACE" else level
  }

  // ---------------------------------------------------------------------------
  // ANSI stripping (`ansiStripWriter.Write`)
  // ---------------------------------------------------------------------------

  const Esc: bv8 := 0x1b
  const LeftBracket: bv8 := 0x5b
  const LetterM: bv8 := 0x6d

  /** A byte the pattern's `[0-9;]` class admits. */
  predicate IsParamByte(c: bv8) {
    0x30 <= c <= 0x39 || c == 0x3b
  }

  /** The end of the run of parameter bytes starting at `i`. */
  function ParamRun(p: seq<bv8>, i: nat): (j: nat)
    requires i <= |p|
    ensures i <= j <= |p|
    ensures forall k :: i <= k < j ==> IsParamByte(p[k])
    ensures j == |p| || !IsParamByte(p[j])
    decreases |p| - i
  {
    if i < |p| && IsParamByte(p[i]) then ParamRun(p, i + 1) else i
  }

  /**
   * The length of the escape sequence `ESC [ [0-9;]* m` at the start of `p`,
   * or 0 if there is none there. The class excludes 'm', so a match always
   * runs over the whole parameter run.
   */
  function SequenceAt(p: seq<bv8>): (n: nat)
    ensures n <= |p|
    ensures n > 0 ==> n >= 3 && p[0] == Esc && p[1] == LeftBracket && p[n - 1] == LetterM
    ensures n > 0 ==> forall k :: 2 <= k < n - 1 ==> IsParamByte(p[k])
  {
    if |p| >= 2 && p[0] == Esc && p[1] == LeftBracket then
      var j := ParamRun(p, 2);
      if j < |p| && p[j] == LetterM then j + 1 else 0
    else 0
  }

  /**
   * The regular expression's `ReplaceAll` with nothing: scanning from the
   * left, every escape sequence is dropped and every other byte is kept.
   */
  function StripAnsi(p: seq<bv8>): (r: seq<bv8>)
    ensures |r| <= |p|
    decreases |p|
  {
    if |p| == 0 then []
    else
      var n := SequenceAt(p);
      if n > 0 then StripAnsi(p[n..]) else [p[0]] + StripAnsi(p[1..])
  }

  /**
   * `Write`: the stripped bytes go to the log file, and the length reported
   * is that of the original bytes, as `io.Writer` expects.
   */
  function Write(p: seq<bv8>): (r: (nat, seq<bv8>))
    ensures r.0 == |p|
    ensures r.1 == StripAnsi(p)
    ensures |r.1| <= r.0
  {
    (|p|, StripAnsi(p))
  }

  /** Text without an escape byte passes through unchanged. */
  lemma {:induction false} StripPlain(p: seq<bv8>)
    requires Esc !in p
    ensures StripAnsi(p) == p
    decreases |p|
  {
    if |p| > 0 {
      assert Esc !in p[1..];
      StripPlain(p[1..]);
    }
  }

  /** Text without an escape byte in front of anything is kept as it is. */
  lemma {:induction false} StripKeepsPlainPrefix(t: seq<bv8>, rest: seq<bv8>)
    requires Esc !in t
    ensures StripAnsi(t + rest) == t + StripAnsi(rest)
    decreases |t|
  {
    if |t| > 0 {
      assert (t + rest)[1..] == t[1..] + rest;
      assert Esc !in t[1..];
      StripKeepsPlainPrefix(t[1..], rest);
    } else {
      assert t + rest == rest;
    }
  }

  /** The escape sequence `ESC [ params m`. */
  function Sgr(params: seq<bv8>): seq<bv8> {
    [Esc, LeftBracket] + params + [LetterM]
  }

  lemma {:induction false} ParamRunEnds(p: seq<bv8>, i: nat, j: nat)
    requires i <= j < |p| && !IsParamByte(p[j])
    requires forall k :: i <= k < j ==> IsParamByte(p[k])
    ensures ParamRun(p, i) == j
    decreases j - i
  {
    if i < j {
      ParamRunEnds(p, i + 1, j);
    }
  }

  /** A leading escape sequence is dropped whole. */
  lemma StripSequence(params: seq<bv8>, rest: seq<bv8>)
    requires forall k :: 0 <= k < |params| ==> IsParamByte(params[k])
    ensures StripAnsi(Sgr(params) + rest) == StripAnsi(rest)
  {
    var p := Sgr(params) + rest;
    var n := |params| + 3;
    assert forall k :: 2 <= k < n - 1 ==> p[k] == params[k - 2];
    ParamRunEnds(p, 2, n - 1);
    assert SequenceAt(p) == n;
    assert p[n..] == rest;
  }

  /**
   * A coloured log line, `ESC[<colour>m text ESC[0m`, reaches the log file
   * as the bare text.
   */
  lemma StripColouredText(colour: seq<bv8>, text: seq<bv8>)
    requires forall k :: 0 <= k < |colour| ==> IsParamByte(colour[k])
    requires Esc !in text
    ensures StripAnsi(Sgr(colour) + text + Sgr([0x30])) == text
  {
    var reset := Sgr([0x30]);
    assert Sgr(colour) + text + reset == Sgr(colour) + (text + reset);
    StripSequence(colour, text + reset);
    StripKeepsPlainPrefix(text, reset);
    StripSequence([0x30], []);
    assert reset + [] == reset;
    assert StripAnsi([]) == [];
  }
}

=== FILE: decoder.dfy ===
/**
 * The Photon parameter decoder: a reliable message carries a declared number
 * of (id byte, type-tag byte, value) triples, and each value is decoded
 * according to its tag. The Go code reads from a `bytes.Buffer` with
 * `binary.Read` and ignores most of its errors, so a fixed-width read from a
 * buffer that is too short leaves the value at zero and drains the buffer.
 * Decode errors never abort the message: they become `"ERROR - ..."` string
 * values in the slot of the offending parameter.
 */
module ParameterDecoder {
  import opened Wrappers
  import GoText

  /** A Go `byte`. */
  newtype uint8 = x: int | 0 <= x < 0x100

  // ---------------------------------------------------------------------------
  // Type tags
  // ---------------------------------------------------------------------------

  const NilType: uint8 := 42
  const DictionaryType: uint8 := 68
  const StringSliceType: uint8 := 97
  const Int8Type: uint8 := 98
  const Custom: uint8 := 99
  const DoubleType: uint8 := 100
  const EventDateType: uint8 := 101
  const Float32Type: uint8 := 102
  const Hashtable: uint8 := 104
  const Int32Type: uint8 := 105
  const Int16Type: uint8 := 107
  const Int64Type: uint8 := 108
  const Int32SliceType: uint8 := 110
  const BooleanType: uint8 := 111
  const OperationResponseType: uint8 := 112
  const OperationRequestType: uint8 := 113
  const StringType: uint8 := 115
  const Int8SliceType: uint8 := 120
  const SliceType: uint8 := 121
  const ObjectSliceType: uint8 := 122

  /** Tag 7 is decoded like an int16 at the top level (but not as a slice element). */
  const LegacyInt16Type: uint8 := 7

  /** The tags the top-level switch of `decodeType` handles. */
  predicate IsHandledType(tag: uint8) {
    tag == NilType || tag == 0 || tag == Int8Type || tag == Float32Type
    || tag == Int32Type || tag == Int16Type || tag == LegacyInt16Type
    || tag == Int64Type || tag == StringType || tag == BooleanType
    || tag == Int8SliceType || tag == SliceType || tag == DictionaryType
  }

  /** The element tags `decodeSlice` handles. */
  predicate IsSliceElementType(tag: uint8) {
    tag == Float32Type || tag == Int32Type || tag == Int16Type || tag == Int64Type
    || tag == StringType || tag == BooleanType || tag == Int8SliceType || tag == SliceType
  }

  // ---------------------------------------------------------------------------
  // Decoded values
  // ---------------------------------------------------------------------------

  /**
   * What one parameter decodes to. `Float32` keeps the four raw bytes, since
   * floating point is not interpreted here; `Slice` remembers its element tag
   * because Go produces a differently typed slice for each; `Error` stands
   * for the `"ERROR - ..."` string Go stores in place of a value that failed,
   * kept as the reason that string is rendered from (see `Message`).
   */
  datatype Value =
    | Nil
    | Int8(i: int)
    | Int16(i: int)
    | Int32(i: int)
    | Int64(i: int)
    | Float32(raw: seq<uint8>)
    | Bool(b: bool)
    | Str(text: seq<uint8>)
    | Int8Slice(bytes: seq<int>)
    | Slice(elementType: uint8, items: seq<Value>)
    | Dict(entries: map<Value, Value>)
    | Error(reason: Fault)

  /** The Go `error` values the decoder can meet. */
  datatype ReadError =
    | Eof                          // io.EOF: nothing left to read
    | UnexpectedEof                // io.ErrUnexpectedEOF: part of a field was left
    | InvalidSliceType(tag: uint8)
    | InvalidBoolean(byte: uint8)

  /** `err.Error()` for each of them. */
  function ErrorText(e: ReadError): string {
    match e
    case Eof => "EOF"
    case UnexpectedEof => "unexpected EOF"
    case InvalidSliceType(t) => "Invalid slice type of " + GoText.FormatInt(t as int)
    case InvalidBoolean(b) => "Invalid value for boolean of " + GoText.FormatInt(b as int)
  }

  /** The reader an in-band error comes from: the middle word of its message. */
  datatype Context = InBoolean | InInt8Slice | InSlice | InDictionary

  /** Why a value was replaced by an error string. */
  datatype Fault =
    | ReaderFailed(context: Context, error: ReadError)
    | InvalidType(tag: uint8)

  function ContextName(c: Context): string {
    match c
    case InBoolean => "Boolean"
    case InInt8Slice => "Slice Int8"
    case InSlice => "Slice"
    case InDictionary => "Dictionary"
  }

  /** The string `decodeType` stores for a fault. */
  function Message(f: Fault): (m: string)
    ensures GoText.HasPrefix(m, "ERROR - ")
  {
    match f
    case ReaderFailed(c, e) => "ERROR - " + ContextName(c) + " - " + ErrorText(e)
    case InvalidType(t) => "ERROR - Invalid type of " + GoText.FormatInt(t as int)
  }

  /** A decoded result together with the buffer left after it. */
  datatype Decoded<+T> = Decoded(result: T, rest: seq<uint8>)

  // ---------------------------------------------------------------------------
  // Big-endian integers
  // ---------------------------------------------------------------------------

  function Pow256(n: nat): (p: nat)
    ensures p >= 1
  {
    if n == 0 then 1 else 256 * Pow256(n - 1)
  }

  lemma Pow256Widths()
    ensures Pow256(1) == 0x100 && Pow256(2) == 0x1_0000
    ensures Pow256(4) == 0x1_0000_0000 && Pow256(8) == 0x1_0000_0000_0000_0000
  {
    assert Pow256(1) == 0x100;
    assert Pow256(2) == 0x1_0000;
    assert Pow256(3) == 0x100_0000;
    assert Pow256(4) == 0x1_0000_0000;
    assert Pow256(5) == 0x100_0000_0000;
    assert Pow256(6) == 0x1_0000_0000_0000;
    assert Pow256(7) == 0x100_0000_0000_0000;
  }

  lemma Pow256Even(n: nat)
    ensures n == 0 || Pow256(n) == 2 * (Pow256(n) / 2)
  {
    if n > 0 {
      assert Pow256(n) == 2 * (128 * Pow256(n - 1));
    }
  }

  /** The unsigned number `bytes` denote, most significant byte first. */
  function BigEndian(bytes: seq<uint8>): (u: nat)
    ensures u < Pow256(|bytes|)
  {
    if |bytes| == 0 then 0 else BigEndian(bytes[..|bytes| - 1]) * 256 + bytes[|bytes| - 1] as nat
  }

  /** The two's-complement reading of an n-byte unsigned number. */
  function ToSigned(u: nat, n: nat): (i: int)
    requires u < Pow256(n)
    ensures n == 0 || -(Pow256(n) / 2) <= i < Pow256(n) / 2
  {
    Pow256Even(n);
    if 2 * u >= Pow256(n) then u - Pow256(n) else u
  }

  function Zeros(n: nat): (z: seq<uint8>)
    ensures |z| == n && forall i :: 0 <= i < n ==> z[i] == 0
  {
    seq(n, _ => 0)
  }

  // ---------------------------------------------------------------------------
  // binary.Read of fixed-width fields
  // ---------------------------------------------------------------------------

  /**
   * `binary.Read` of an n-byte field: `io.ReadFull` either gets all n bytes
   * or drains what is left and leaves the field at its zero value.
   */
  datatype Field = Field(bytes: seq<uint8>, complete: bool, rest: seq<uint8>)

  function ReadField(buf: seq<uint8>, n: nat): (f: Field)
    ensures |f.bytes| == n
    ensures f.complete <==> n <= |buf|
    ensures f.complete ==> f.bytes == buf[..n] && f.rest == buf[n..]
    ensures !f.complete ==> f.bytes == Zeros(n) && f.rest == []
  {
    if n <= |buf| then Field(buf[..n], true, buf[n..]) else Field(Zeros(n), false, [])
  }

  /** The error `binary.Read` reports for a field it could not fill from `buf`. */
  function ShortRead(buf: seq<uint8>): ReadError {
    if |buf| == 0 then Eof else UnexpectedEof
  }

  /** The Go integer type of each width. */
  function IntOfWidth(n: nat, i: int): Value
    requires n in {1, 2, 4, 8}
  {
    if n == 1 then Int8(i) else if n == 2 then Int16(i) else if n == 4 then Int32(i) else Int64(i)
  }

  /** Byte width of each integer tag. */
  function IntWidth(tag: uint8): (n: nat)
    ensures n in {1, 2, 4, 8}
  {
    if tag == Int8Type then 1
    else if tag == Int16Type || tag == LegacyInt16Type then 2
    else if tag == Int32Type then 4
    else 8
  }

  predicate IsIntType(tag: uint8) {
    tag == Int8Type || tag == Int16Type || tag == LegacyInt16Type || tag == Int32Type || tag == Int64Type
  }

  /** `decodeInt8Type` .. `decodeInt64Type`: a signed big-endian integer of n bytes. */
  function ReadInt(buf: seq<uint8>, n: nat): (d: Decoded<Value>)
    requires n in {1, 2, 4, 8}
    ensures |d.rest| <= |buf|
  {
    var f := ReadField(buf, n);
    Decoded(IntOfWidth(n, ToSigned(BigEndian(f.bytes), n)), f.rest)
  }

  /** `decodeFloat32Type`, keeping the four bytes uninterpreted. */
  function ReadFloat32(buf: seq<uint8>): (d: Decoded<Value>)
    ensures |d.rest| <= |buf|
  {
    var f := ReadField(buf, 4);
    Decoded(Float32(f.bytes), f.rest)
  }

  // ---------------------------------------------------------------------------
  // Strings, booleans and int8 slices
  // ---------------------------------------------------------------------------

  /**
   * `decodeStringType`: a two-byte length L, then `buf.Read` into an L-byte
   * array, which copies what is there and leaves the remainder zero.
   */
  function DecodeString(buf: seq<uint8>): (d: Decoded<Value>)
    ensures |d.rest| <= |buf|
    ensures d.result.Str?
  {
    var len := ReadField(buf, 2);
    var n := BigEndian(len.bytes);
    var k := if n <= |len.rest| then n else |len.rest|;
    Decoded(Str(len.rest[..k] + Zeros(n - k)), len.rest[k..])
  }

  /** `decodeBooleanType`: the byte must be 0 or 1 (a short read leaves it 0). */
  function DecodeBoolean(buf: seq<uint8>): (d: Decoded<Result<bool, ReadError>>)
    ensures |d.rest| <= |buf|
  {
    var f := ReadField(buf, 1);
    var b := f.bytes[0];
    Decoded(if b == 0 then Success(false) else if b == 1 then Success(true) else Failure(InvalidBoolean(b)), f.rest)
  }

  /**
   * `decodeSliceInt8Type`: a four-byte length, then one signed byte per
   * element. Unlike the other readers it checks its errors.
   */
  function DecodeInt8Slice(buf: seq<uint8>): (d: Decoded<Result<seq<int>, ReadError>>)
    ensures |d.rest| <= |buf|
  {
    var len := ReadField(buf, 4);
    if !len.complete then Decoded(Failure(ShortRead(buf)), [])
    else
      var n := BigEndian(len.bytes);
      if n <= |len.rest| then
        Decoded(Success(SignedBytes(len.rest[..n])), len.rest[n..])
      else
        Decoded(Failure(Eof), [])
  }

  // ---------------------------------------------------------------------------
  // The recursive decoders
  // ---------------------------------------------------------------------------

  /** Each byte read as an `int8`. */
  function SignedBytes(bytes: seq<uint8>): (xs: seq<int>)
    ensures |xs| == |bytes|
  {
    seq(|bytes|, i requires 0 <= i < |bytes| => ToSigned(bytes[i] as nat, 1))
  }

  /** How `decodeType` reports a reader's error: as an error value in place of the result. */
  function Reported(c: Context, d: Decoded<Result<Value, ReadError>>): Decoded<Value> {
    match d.result
    case Success(v) => Decoded(v, d.rest)
    case Failure(e) => Decoded(Error(ReaderFailed(c, e)), d.rest)
  }

  /** A boolean reader's outcome as a decoded value. */
  function BoolValue(d: Decoded<Result<bool, ReadError>>): (r: Decoded<Result<Value, ReadError>>) {
    Decoded(match d.result case Success(x) => Success(Bool(x)) case Failure(e) => Failure(e), d.rest)
  }

  /** An int8-slice reader's outcome as a decoded value. */
  function Int8SliceValue(d: Decoded<Result<seq<int>, ReadError>>): (r: Decoded<Result<Value, ReadError>>) {
    Decoded(match d.result case Success(x) => Success(Int8Slice(x)) case Failure(e) => Failure(e), d.rest)
  }

  /** `decodeType`: one value of type `tag`. */
  function DecodeType(buf: seq<uint8>, tag: uint8): (d: Decoded<Value>)
    ensures |d.rest| <= |buf|
    ensures tag == NilType || tag == 0 ==> d == Decoded(Nil, buf)
    ensures !IsHandledType(tag) ==> d == Decoded(Error(InvalidType(tag)), buf)
    decreases |buf|, 3, 0
  {
    if tag == NilType || tag == 0 then Decoded(Nil, buf)
    else if IsIntType(tag) then ReadInt(buf, IntWidth(tag))
    else if tag == Float32Type then ReadFloat32(buf)
    else if tag == StringType then DecodeString(buf)
    else if tag == BooleanType then Reported(InBoolean, BoolValue(DecodeBoolean(buf)))
    else if tag == Int8SliceType then Reported(InInt8Slice, Int8SliceValue(DecodeInt8Slice(buf)))
    else if tag == SliceType then Reported(InSlice, DecodeSlice(buf))
    else if tag == DictionaryType then Reported(InDictionary, DecodeDictionary(buf))
    else Decoded(Error(InvalidType(tag)), buf)
  }

  /**
   * `decodeSlice`: a two-byte length and a one-byte element tag (both read
   * without checking errors), then that many elements.
   */
  function DecodeSlice(buf: seq<uint8>): (d: Decoded<Result<Value, ReadError>>)
    ensures |d.rest| <= |buf|
    ensures d.result.Success? ==> d.result.value.Slice?
    decreases |buf|, 0, 0
  {
    var len := ReadField(buf, 2);
    var et := ReadField(len.rest, 1);
    var n := BigEndian(len.bytes);
    var t := et.bytes[0];
    if !IsSliceElementType(t) then Decoded(Failure(InvalidSliceType(t)), et.rest)
    else
      SliceValue(t, DecodeItems(et.rest, t, n))
  }

  /** The elements' outcome as a decoded slice with element tag `t`. */
  function SliceValue(t: uint8, d: Decoded<Result<seq<Value>, ReadError>>): (r: Decoded<Result<Value, ReadError>>) {
    Decoded(match d.result case Success(xs) => Success(Slice(t, xs)) case Failure(e) => Failure(e), d.rest)
  }

  /** The loop of `decodeSlice`: n elements of type `t`, stopping at the first error. */
  function DecodeItems(buf: seq<uint8>, t: uint8, n: nat): (d: Decoded<Result<seq<Value>, ReadError>>)
    requires IsSliceElementType(t)
    ensures |d.rest| <= |buf|
    ensures d.result.Success? ==> |d.result.value| == n
    decreases |buf|, 2, n
  {
    if n == 0 then Decoded(Success([]), buf)
    else
      var first := DecodeElement(buf, t);
      match first.result
      case Failure(e) => Decoded(Failure(e), first.rest)
      case Success(v) =>
        var more := DecodeItems(first.rest, t, n - 1);
        Decoded(match more.result case Success(vs) => Success([v] + vs) case Failure(e) => Failure(e), more.rest)
  }

  /** One element of a slice whose element tag is `t`. */
  function DecodeElement(buf: seq<uint8>, t: uint8): (d: Decoded<Result<Value, ReadError>>)
    requires IsSliceElementType(t)
    ensures |d.rest| <= |buf|
    decreases |buf|, 1, 0
  {
    if t == Float32Type then Ok(ReadFloat32(buf))
    else if t == Int32Type then Ok(ReadInt(buf, 4))
    else if t == Int16Type then Ok(ReadInt(buf, 2))
    else if t == Int64Type then Ok(ReadInt(buf, 8))
    else if t == StringType then Ok(DecodeString(buf))
    else if t == BooleanType then BoolValue(DecodeBoolean(buf))
    else if t == Int8SliceType then Int8SliceValue(DecodeInt8Slice(buf))
    else
      DecodeSlice(buf)
  }

  function Ok(d: Decoded<Value>): Decoded<Result<Value, ReadError>> {
    Decoded(Success(d.result), d.rest)
  }

  /**
   * `decodeDictionaryType`: a key tag, a value tag and a two-byte entry
   * count, each checked for a short read, then that many key/value pairs.
   */
  function DecodeDictionary(buf: seq<uint8>): (d: Decoded<Result<Value, ReadError>>)
    ensures |d.rest| <= |buf|
    ensures d.result.Success? ==> d.result.value.Dict?
    decreases |buf|, 0, 0
  {
    var k := ReadField(buf, 1);
    if !k.complete then Decoded(Failure(ShortRead(buf)), [])
    else
      var v := ReadField(k.rest, 1);
      if !v.complete then Decoded(Failure(ShortRead(k.rest)), [])
      else
        var size := ReadField(v.rest, 2);
        if !size.complete then Decoded(Failure(ShortRead(v.rest)), [])
        else
          var entries := DecodeEntries(size.rest, k.bytes[0], v.bytes[0], BigEndian(size.bytes));
          Decoded(Success(Dict(LastWins(entries.result))), entries.rest)
  }

  /** One key/value pair of a dictionary. */
  function DecodeEntry(buf: seq<uint8>, keyType: uint8, valueType: uint8): (d: Decoded<(Value, Value)>)
    ensures |d.rest| <= |buf|
    decreases |buf|, 4, 0
  {
    var key := DecodeType(buf, keyType);
    var value := DecodeType(key.rest, valueType);
    Decoded((key.result, value.result), value.rest)
  }

  /** The dictionary loop: exactly n key/value pairs, in wire order. */
  function DecodeEntries(buf: seq<uint8>, keyType: uint8, valueType: uint8, n: nat): (d: Decoded<seq<(Value, Value)>>)
    ensures |d.rest| <= |buf|
    ensures |d.result| == n
    decreases |buf|, 5, n
  {
    if n == 0 then Decoded([], buf)
    else
      var first := DecodeEntry(buf, keyType, valueType);
      var more := DecodeEntries(first.rest, keyType, valueType, n - 1);
      Decoded([first.result] + more.result, more.rest)
  }

  // ---------------------------------------------------------------------------
  // Assigning into a Go map: later keys overwrite earlier ones
  // ---------------------------------------------------------------------------

  /** The map that results from assigning each pair in turn. */
  function LastWins<K(==), V>(pairs: seq<(K, V)>): (m: map<K, V>)
    ensures m.Keys == set i | 0 <= i < |pairs| :: pairs[i].0
  {
    if |pairs| == 0 then map[]
    else
      var init := LastWins(pairs[..|pairs| - 1]);
      var last := pairs[|pairs| - 1];
      assert forall i :: 0 <= i < |pairs| - 1 ==> pairs[..|pairs| - 1][i] == pairs[i];
      init[last.0 := last.1]
  }

  /** The value of each key is the one its last pair carries. */
  lemma {:induction false} LastWinsValue<K, V>(pairs: seq<(K, V)>, i: nat)
    requires i < |pairs|
    requires forall j :: i < j < |pairs| ==> pairs[j].0 != pairs[i].0
    ensures pairs[i].0 in LastWins(pairs) && LastWins(pairs)[pairs[i].0] == pairs[i].1
    decreases |pairs|
  {
    if i < |pairs| - 1 {
      var init := pairs[..|pairs| - 1];
      assert init[i] == pairs[i];
      LastWinsValue(init, i);
    }
  }

  lemma {:induction false} LastWinsSize<K, V>(pairs: seq<(K, V)>)
    ensures |LastWins(pairs)| <= |pairs|
    decreases |pairs|
  {
    if |pairs| > 0 {
      LastWinsSize(pairs[..|pairs| - 1]);
    }
  }

  // ---------------------------------------------------------------------------
  // The message
  // ---------------------------------------------------------------------------

  /** The part of a Photon reliable message the decoder reads. */
  datatype ReliableMessage = ReliableMessage(parameterCount: int, data: seq<uint8>)

  /** One (id, tag, value) triple; id and tag read as 0 from an exhausted buffer. */
  function DecodeParameter(buf: seq<uint8>): (d: Decoded<(uint8, Value)>)
    ensures |d.rest| <= |buf|
  {
    var id := ReadField(buf, 1);
    var tag := ReadField(id.rest, 1);
    var v := DecodeType(tag.rest, tag.bytes[0]);
    Decoded((id.bytes[0], v.result), v.rest)
  }

  /** The triples of the message in wire order, exactly `count` of them. */
  function ParameterList(buf: seq<uint8>, count: int): (ps: seq<(uint8, Value)>)
    ensures |ps| == if count < 0 then 0 else count
    decreases count
  {
    if count <= 0 then []
    else
      var p := DecodeParameter(buf);
      [p.result] + ParameterList(p.rest, count - 1)
  }

  lemma ParameterListStep(buf: seq<uint8>, count: int)
    requires count > 0
    ensures ParameterList(buf, count)
      == [DecodeParameter(buf).result] + ParameterList(DecodeParameter(buf).rest, count - 1)
  {
  }

  lemma AppendAssociative<T>(a: seq<T>, b: seq<T>, c: seq<T>)
    ensures a + (b + c) == (a + b) + c
    ensures [] + c == c && a + [] == a
  {
  }

  lemma LastWinsSnoc<K, V>(pairs: seq<(K, V)>, p: (K, V))
    ensures LastWins(pairs + [p]) == LastWins(pairs)[p.0 := p.1]
  {
    assert (pairs + [p])[..|pairs|] == pairs;
  }

  /**
   * `DecodeReliableMessage`: reads exactly `parameterCount` triples and
   * assigns each into the result map, so a repeated id keeps its last value.
   */
  method DecodeReliableMessage(msg: ReliableMessage) returns (params: map<uint8, Value>)
    ensures params == LastWins(ParameterList(msg.data, msg.parameterCount))
    ensures msg.parameterCount >= 0 ==> |params| <= msg.parameterCount
    ensures msg.parameterCount <= 0 ==> params == map[]
  {
    var count := msg.parameterCount;
    var buf := msg.data;
    params := map[];
    ghost var done: seq<(uint8, Value)> := [];
    var i := 0;
    AppendAssociative(done, [], ParameterList(buf, count));
    while i < count
      invariant 0 <= i && (count >= 0 ==> i <= count)
      invariant ParameterList(msg.data, count) == done + ParameterList(buf, count - i)
      invariant params == LastWins(done)
    {
      var p := DecodeParameter(buf);
      ParameterListStep(buf, count - i);
      AppendAssociative(done, [p.result], ParameterList(p.rest, count - i - 1));
      LastWinsSnoc(done, p.result);
      params := params[p.result.0 := p.result.1];
      done := done + [p.result];
      buf := p.rest;
      i := i + 1;
    }
    AppendAssociative(done, [], ParameterList(buf, count - i));
    LastWinsSize(done);
  }

  // ---------------------------------------------------------------------------
  // Properties of the value decoders
  // ---------------------------------------------------------------------------

  lemma {:induction false} BigEndianZeros(n: nat)
    ensures BigEndian(Zeros(n)) == 0
  {
    if n > 0 {
      assert Zeros(n)[..n - 1] == Zeros(n - 1);
      BigEndianZeros(n - 1);
    }
  }

  /**
   * Tags 98, 107 and 7, 105 and 108 read a signed big-endian integer of
   * 1, 2, 4 and 8 bytes; a buffer too short for it gives 0 and is drained.
   */
  lemma IntegerTags(buf: seq<uint8>, tag: uint8)
    requires IsIntType(tag)
    ensures var n := IntWidth(tag);
      DecodeType(buf, tag)
      == if n <= |buf| then Decoded(IntOfWidth(n, ToSigned(BigEndian(buf[..n]), n)), buf[n..])
         else Decoded(IntOfWidth(n, 0), [])
  {
    assert DecodeType(buf, tag) == ReadInt(buf, IntWidth(tag));
    ReadIntCases(buf, IntWidth(tag));
  }

  /** `ReadInt` on a buffer that holds the field, and on one that does not. */
  lemma ReadIntCases(buf: seq<uint8>, n: nat)
    requires n in {1, 2, 4, 8}
    ensures ReadInt(buf, n)
      == if n <= |buf| then Decoded(IntOfWidth(n, ToSigned(BigEndian(buf[..n]), n)), buf[n..])
         else Decoded(IntOfWidth(n, 0), [])
  {
    var f := ReadField(buf, n);
    if n <= |buf| {
      assert f.bytes == buf[..n] && f.rest == buf[n..];
    } else {
      assert f.bytes == Zeros(n) && f.rest == [];
      BigEndianZeros(n);
      assert ToSigned(BigEndian(f.bytes), n) == 0;
    }
  }

  /**
   * A boolean byte of 0 or 1 decodes to false or true; any other byte gives an
   * in-band error string. Exactly one byte is consumed.
   */
  lemma BooleanTag(buf: seq<uint8>)
    requires |buf| >= 1
    ensures buf[0] == 0 ==> DecodeType(buf, BooleanType) == Decoded(Bool(false), buf[1..])
    ensures buf[0] == 1 ==> DecodeType(buf, BooleanType) == Decoded(Bool(true), buf[1..])
    ensures buf[0] != 0 && buf[0] != 1 ==>
      DecodeType(buf, BooleanType) == Decoded(Error(ReaderFailed(InBoolean, InvalidBoolean(buf[0]))), buf[1..])
  {
    var b := DecodeBoolean(buf);
    assert DecodeType(buf, BooleanType) == Reported(InBoolean, BoolValue(b));
    BooleanRead(buf);
    if buf[0] == 0 {
      assert BoolValue(b) == Decoded(Success(Bool(false)), buf[1..]);
    } else if buf[0] == 1 {
      assert BoolValue(b) == Decoded(Success(Bool(true)), buf[1..]);
    } else {
      assert BoolValue(b) == Decoded(Failure(InvalidBoolean(buf[0])), buf[1..]);
    }
  }

  /** `decodeBooleanType` on a non-empty buffer reads exactly its first byte. */
  lemma BooleanRead(buf: seq<uint8>)
    requires |buf| >= 1
    ensures DecodeBoolean(buf).rest == buf[1..]
    ensures DecodeBoolean(buf).result
      == if buf[0] == 0 then Success(false) else if buf[0] == 1 then Success(true) else Failure(InvalidBoolean(buf[0]))
  {
    var f := ReadField(buf, 1);
    assert f.bytes == buf[..1] && f.rest == buf[1..];
    assert f.bytes[0] == buf[0];
  }

  /**
   * A string is a two-byte length L and L bytes; the text always has length L,
   * and what the buffer could not supply is zero.
   */
  lemma StringTag(buf: seq<uint8>)
    requires |buf| >= 2
    ensures var n := BigEndian(buf[..2]);
      var d := DecodeType(buf, StringType);
      && d.result.Str?
      && |d.result.text| == n
      && (n <= |buf| - 2 ==> d == Decoded(Str(buf[2..2 + n]), buf[2 + n..]))
      && (n > |buf| - 2 ==> d == Decoded(Str(buf[2..] + Zeros(n - (|buf| - 2))), []))
  {
    assert DecodeType(buf, StringType) == DecodeString(buf);
    if BigEndian(buf[..2]) <= |buf| - 2 {
      StringRead(buf);
    } else {
      StringShort(buf);
    }
  }

  /** A string whose declared length the buffer covers is exactly that many bytes. */
  lemma StringRead(buf: seq<uint8>)
    requires |buf| >= 2 && BigEndian(buf[..2]) <= |buf| - 2
    ensures var n := BigEndian(buf[..2]);
      DecodeString(buf) == Decoded(Str(buf[2..2 + n]), buf[2 + n..])
  {
    var n := BigEndian(buf[..2]);
    var len := ReadField(buf, 2);
    assert len.bytes == buf[..2] && len.rest == buf[2..];
    assert len.rest[..n] + Zeros(0) == buf[2..2 + n];
    assert len.rest[n..] == buf[2 + n..];
  }

  /** A string the buffer cuts short is padded with zero bytes and drains the buffer. */
  lemma StringShort(buf: seq<uint8>)
    requires |buf| >= 2 && BigEndian(buf[..2]) > |buf| - 2
    ensures var n := BigEndian(buf[..2]);
      DecodeString(buf) == Decoded(Str(buf[2..] + Zeros(n - (|buf| - 2))), [])
  {
    var len := ReadField(buf, 2);
    assert len.bytes == buf[..2] && len.rest == buf[2..];
    assert len.rest[..|buf| - 2] == buf[2..];
    assert len.rest[|buf| - 2..] == [];
  }

  /**
   * A slice with an element tag `decodeSlice` does not handle is reported as
   * an error string after its three header bytes; otherwise a slice that
   * decodes has exactly the declared number of elements.
   */
  lemma SliceTag(buf: seq<uint8>)
    requires |buf| >= 3
    ensures var n := BigEndian(buf[..2]);
      var t := buf[2];
      var d := DecodeType(buf, SliceType);
      && (!IsSliceElementType(t) ==>
            d == Decoded(Error(ReaderFailed(InSlice, InvalidSliceType(t))), buf[3..]))
      && (d.result.Slice? ==> d.result.elementType == t && |d.result.items| == n)
  {
    var len := ReadField(buf, 2);
    var et := ReadField(len.rest, 1);
    assert len.rest == buf[2..];
    assert et.bytes == [buf[2]];
    assert et.rest == buf[3..];
    var d := DecodeSlice(buf);
    assert DecodeType(buf, SliceType) == Reported(InSlice, d);
    if !IsSliceElementType(buf[2]) {
      assert d == Decoded(Failure(InvalidSliceType(buf[2])), buf[3..]);
    }
  }

  /** Without its four length bytes an int8 slice is an error; with them it has exactly that many elements. */
  lemma Int8SliceTag(buf: seq<uint8>)
    ensures |buf| == 0 ==> DecodeType(buf, Int8SliceType) == Decoded(Error(ReaderFailed(InInt8Slice, Eof)), [])
    ensures 0 < |buf| < 4 ==>
      DecodeType(buf, Int8SliceType) == Decoded(Error(ReaderFailed(InInt8Slice, UnexpectedEof)), [])
    ensures |buf| >= 4 && BigEndian(buf[..4]) <= |buf| - 4 ==>
      var n := BigEndian(buf[..4]);
      DecodeType(buf, Int8SliceType) == Decoded(Int8Slice(SignedBytes(buf[4..4 + n])), buf[4 + n..])
    ensures |buf| >= 4 && BigEndian(buf[..4]) > |buf| - 4 ==>
      DecodeType(buf, Int8SliceType) == Decoded(Error(ReaderFailed(InInt8Slice, Eof)), [])
  {
    var a := DecodeInt8Slice(buf);
    assert DecodeType(buf, Int8SliceType) == Reported(InInt8Slice, Int8SliceValue(a));
    if |buf| < 4 {
      assert a == Decoded(Failure(ShortRead(buf)), []);
    } else if BigEndian(buf[..4]) <= |buf| - 4 {
      Int8SliceRead(buf);
    } else {
      assert ReadField(buf, 4).bytes == buf[..4];
      assert a == Decoded(Failure(Eof), []);
    }
  }

  /**
   * A dictionary whose header (key tag, value tag, two-byte count) is cut
   * short is an error; otherwise it holds the last value given to each of
   * the keys among exactly `count` decoded pairs.
   */
  lemma DictionaryTag(buf: seq<uint8>)
    ensures |buf| < 4 ==> DecodeType(buf, DictionaryType).result.Error?
    ensures |buf| >= 4 ==>
      var entries := DecodeEntries(buf[4..], buf[0], buf[1], BigEndian(buf[2..4]));
      && |entries.result| == BigEndian(buf[2..4])
      && DecodeType(buf, DictionaryType) == Decoded(Dict(LastWins(entries.result)), entries.rest)
  {
    if |buf| >= 4 {
      assert buf[1..][1..] == buf[2..];
      assert buf[2..][..2] == buf[2..4];
      assert buf[2..][2..] == buf[4..];
    }
  }

  // ---------------------------------------------------------------------------
  // Round trip: an encoder the decoder inverts
  // ---------------------------------------------------------------------------

  /** Unsigned n-byte big-endian encoding of `u`. */
  function ToBytes(u: nat, n: nat): (b: seq<uint8>)
    requires u < Pow256(n)
    ensures |b| == n
  {
    if n == 0 then [] else ToBytes(u / 256, n - 1) + [(u % 256) as uint8]
  }

  lemma {:induction false} BigEndianToBytes(u: nat, n: nat)
    requires u < Pow256(n)
    ensures BigEndian(ToBytes(u, n)) == u
  {
    if n > 0 {
      var b := ToBytes(u, n);
      var q, r := u / 256, u % 256;
      assert b == ToBytes(q, n - 1) + [r as uint8];
      assert b[..n - 1] == ToBytes(q, n - 1);
      assert b[n - 1] as nat == r;
      BigEndianToBytes(q, n - 1);
      assert BigEndian(b) == q * 256 + r;
    }
  }

  predicate InSignedRange(i: int, n: nat) {
    -(Pow256(n) / 2) <= i < Pow256(n) / 2
  }

  /** Two's-complement bits of `i` as an n-byte unsigned number. */
  function FromSigned(i: int, n: nat): (u: nat)
    requires n >= 1 && InSignedRange(i, n)
    ensures u < Pow256(n) && ToSigned(u, n) == i
  {
    if i < 0 then i + Pow256(n) else i
  }

  /** The tag whose decoder produces this kind of value. */
  predicate HasElementType(v: Value, t: uint8) {
    || (t == Float32Type && v.Float32?)
    || (t == Int32Type && v.Int32?)
    || (t == Int16Type && v.Int16?)
    || (t == Int64Type && v.Int64?)
    || (t == StringType && v.Str?)
    || (t == BooleanType && v.Bool?)
    || (t == Int8SliceType && v.Int8Slice?)
    || (t == SliceType && v.Slice?)
  }

  /** Values the wire format can carry exactly: no dictionaries or error strings, and every field in range. */
  predicate Encodable(v: Value) {
    match v
    case Nil => true
    case Int8(i) => InSignedRange(i, 1)
    case Int16(i) => InSignedRange(i, 2)
    case Int32(i) => InSignedRange(i, 4)
    case Int64(i) => InSignedRange(i, 8)
    case Float32(raw) => |raw| == 4
    case Bool(_) => true
    case Str(text) => |text| < Pow256(2)
    case Int8Slice(xs) => |xs| < Pow256(4) && forall k :: 0 <= k < |xs| ==> InSignedRange(xs[k], 1)
    case Slice(t, items) =>
      && IsSliceElementType(t)
      && |items| < Pow256(2)
      && forall k :: 0 <= k < |items| ==> Encodable(items[k]) && HasElementType(items[k], t)
    case Dict(_) => false
    case Error(_) => false
  }

  function TagOf(v: Value): uint8
    requires Encodable(v)
  {
    match v
    case Nil => NilType
    case Int8(_) => Int8Type
    case Int16(_) => Int16Type
    case Int32(_) => Int32Type
    case Int64(_) => Int64Type
    case Float32(_) => Float32Type
    case Bool(_) => BooleanType
    case Str(_) => StringType
    case Int8Slice(_) => Int8SliceType
    case Slice(_, _) => SliceType
  }

  /** The bytes that follow the tag of `v` on the wire. */
  function Payload(v: Value): seq<uint8>
    requires Encodable(v)
    decreases v, 1
  {
    match v
    case Nil => []
    case Int8(i) => ToBytes(FromSigned(i, 1), 1)
    case Int16(i) => ToBytes(FromSigned(i, 2), 2)
    case Int32(i) => ToBytes(FromSigned(i, 4), 4)
    case Int64(i) => ToBytes(FromSigned(i, 8), 8)
    case Float32(raw) => raw
    case Bool(b) => [if b then 1 else 0]
    case Str(text) => ToBytes(|text|, 2) + text
    case Int8Slice(xs) => ToBytes(|xs|, 4) + Int8Bytes(xs)
    case Slice(t, items) => ToBytes(|items|, 2) + [t] + ItemsPayload(items)
  }

  function ItemsPayload(items: seq<Value>): seq<uint8>
    requires forall k :: 0 <= k < |items| ==> Encodable(items[k])
    decreases items, 0
  {
    if |items| == 0 then [] else Payload(items[0]) + ItemsPayload(items[1..])
  }

  /** Reading an n-byte field from `bytes + rest` yields `bytes` and leaves `rest`. */
  lemma ReadFieldPrefix(bytes: seq<uint8>, rest: seq<uint8>)
    ensures ReadField(bytes + rest, |bytes|) == Field(bytes, true, rest)
  {
    assert (bytes + rest)[..|bytes|] == bytes;
    assert (bytes + rest)[|bytes|..] == rest;
  }

  lemma IntRoundTrip(i: int, n: nat, rest: seq<uint8>)
    requires n in {1, 2, 4, 8} && InSignedRange(i, n)
    ensures ReadInt(ToBytes(FromSigned(i, n), n) + rest, n) == Decoded(IntOfWidth(n, i), rest)
  {
    ReadFieldPrefix(ToBytes(FromSigned(i, n), n), rest);
    BigEndianToBytes(FromSigned(i, n), n);
  }

  /** A length header followed by exactly that many bytes reads as that text. */
  lemma StringFraming(header: seq<uint8>, text: seq<uint8>, rest: seq<uint8>)
    requires |header| == 2 && BigEndian(header) == |text|
    ensures DecodeString(header + text + rest) == Decoded(Str(text), rest)
  {
    var buf := header + text + rest;
    var n := |text|;
    assert buf[..2] == header;
    assert buf[2..2 + n] == text;
    assert buf[2 + n..] == rest;
    StringRead(buf);
  }

  lemma StringRoundTrip(text: seq<uint8>, rest: seq<uint8>)
    requires |text| < Pow256(2)
    ensures DecodeString(ToBytes(|text|, 2) + text + rest) == Decoded(Str(text), rest)
  {
    BigEndianToBytes(|text|, 2);
    StringFraming(ToBytes(|text|, 2), text, rest);
  }

  lemma SignedByteRoundTrip(x: int)
    requires InSignedRange(x, 1)
    ensures ToSigned((FromSigned(x, 1) as uint8) as nat, 1) == x
  {
    assert Pow256(1) == 256;
  }

  function Int8Bytes(xs: seq<int>): (b: seq<uint8>)
    requires forall k :: 0 <= k < |xs| ==> InSignedRange(xs[k], 1)
    ensures |b| == |xs|
  {
    seq(|xs|, k requires 0 <= k < |xs| => FromSigned(xs[k], 1) as uint8)
  }

  /** A complete int8 slice: the four-byte length n, then n signed bytes. */
  lemma Int8SliceRead(buf: seq<uint8>)
    requires |buf| >= 4 && BigEndian(buf[..4]) <= |buf| - 4
    ensures var n := BigEndian(buf[..4]);
      DecodeInt8Slice(buf) == Decoded(Success(SignedBytes(buf[4..4 + n])), buf[4 + n..])
  {
    var n := BigEndian(buf[..4]);
    var len := ReadField(buf, 4);
    assert len.bytes == buf[..4] && len.rest == buf[4..];
    assert len.rest[..n] == buf[4..4 + n];
    assert len.rest[n..] == buf[4 + n..];
  }

  /** Reading back the bytes `Int8Bytes` wrote gives the numbers again. */
  lemma SignedBytesRoundTrip(xs: seq<int>)
    requires forall k :: 0 <= k < |xs| ==> InSignedRange(xs[k], 1)
    ensures SignedBytes(Int8Bytes(xs)) == xs
  {
    forall k | 0 <= k < |xs|
      ensures SignedBytes(Int8Bytes(xs))[k] == xs[k]
    {
      SignedByteRoundTrip(xs[k]);
    }
  }

  /** A length header followed by exactly that many bytes reads as those bytes. */
  lemma Int8SliceFraming(header: seq<uint8>, body: seq<uint8>, rest: seq<uint8>)
    requires |header| == 4 && BigEndian(header) == |body|
    ensures DecodeInt8Slice(header + body + rest) == Decoded(Success(SignedBytes(body)), rest)
  {
    var buf := header + body + rest;
    var n := |body|;
    assert buf[..4] == header;
    assert buf[4..4 + n] == body;
    assert buf[4 + n..] == rest;
    Int8SliceRead(buf);
  }

  lemma Int8SliceRoundTrip(xs: seq<int>, rest: seq<uint8>)
    requires Encodable(Int8Slice(xs))
    ensures DecodeInt8Slice(ToBytes(|xs|, 4) + Int8Bytes(xs) + rest) == Decoded(Success(xs), rest)
  {
    BigEndianToBytes(|xs|, 4);
    Int8SliceFraming(ToBytes(|xs|, 4), Int8Bytes(xs), rest);
    SignedBytesRoundTrip(xs);
  }

  lemma IntTagRoundTrip(i: int, tag: uint8, rest: seq<uint8>)
    requires IsIntType(tag) && InSignedRange(i, IntWidth(tag))
    ensures var n := IntWidth(tag);
      DecodeType(ToBytes(FromSigned(i, n), n) + rest, tag) == Decoded(IntOfWidth(n, i), rest)
  {
    var n := IntWidth(tag);
    var buf := ToBytes(FromSigned(i, n), n) + rest;
    IntRoundTrip(i, n, rest);
    assert DecodeType(buf, tag) == ReadInt(buf, n);
  }

  lemma ScalarRoundTrip(v: Value, rest: seq<uint8>)
    requires Encodable(v) && !v.Slice? && !v.Int8Slice? && !v.Nil?
    ensures DecodeType(Payload(v) + rest, TagOf(v)) == Decoded(v, rest)
  {
    var buf := Payload(v) + rest;
    match v
    case Int8(i) => IntTagRoundTrip(i, Int8Type, rest);
    case Int16(i) => IntTagRoundTrip(i, Int16Type, rest);
    case Int32(i) => IntTagRoundTrip(i, Int32Type, rest);
    case Int64(i) => IntTagRoundTrip(i, Int64Type, rest);
    case Float32(raw) =>
      ReadFieldPrefix(raw, rest);
      assert DecodeType(buf, Float32Type) == ReadFloat32(buf);
    case Bool(b) =>
      ReadFieldPrefix(Payload(v), rest);
      assert DecodeBoolean(buf) == Decoded(Success(b), rest);
    case Str(text) =>
      StringRoundTrip(text, rest);
      assert DecodeType(buf, StringType) == DecodeString(buf);
  }

  /** Decoding the payload of an encodable value under its own tag gives the value back. */
  lemma {:induction false} RoundTrip(v: Value, rest: seq<uint8>)
    requires Encodable(v)
    ensures DecodeType(Payload(v) + rest, TagOf(v)) == Decoded(v, rest)
    decreases v, 2
  {
    var buf := Payload(v) + rest;
    if v.Nil? {
      assert buf == rest;
    } else if v.Int8Slice? {
      Int8SliceRoundTrip(v.bytes, rest);
      assert DecodeType(buf, Int8SliceType) == Reported(InInt8Slice, Decoded(Success(v), rest));
    } else if v.Slice? {
      SliceRoundTrip(v, rest);
      assert DecodeType(buf, SliceType) == Reported(InSlice, DecodeSlice(buf));
    } else {
      ScalarRoundTrip(v, rest);
    }
  }

  lemma {:induction false} SliceRoundTrip(v: Value, rest: seq<uint8>)
    requires v.Slice? && Encodable(v)
    ensures DecodeSlice(Payload(v) + rest) == Decoded(Success(v), rest)
    decreases v, 0
  {
    var t := v.elementType;
    var items := v.items;
    var header := ToBytes(|items|, 2);
    var tail := ItemsPayload(items) + rest;
    assert Payload(v) + rest == header + [t] + tail;
    BigEndianToBytes(|items|, 2);
    SliceFraming(header, t, tail);
    ItemsRoundTrip(items, t, rest);
  }

  /** A two-byte count and a handled element tag are followed by that many elements. */
  lemma SliceFraming(header: seq<uint8>, t: uint8, tail: seq<uint8>)
    requires |header| == 2 && IsSliceElementType(t)
    ensures DecodeSlice(header + [t] + tail) == SliceValue(t, DecodeItems(tail, t, BigEndian(header)))
  {
    var buf := header + [t] + tail;
    var len := ReadField(buf, 2);
    assert len.bytes == header && len.rest == [t] + tail;
    var et := ReadField(len.rest, 1);
    assert et.bytes == [t] && et.rest == tail;
  }

  lemma {:induction false} ItemsRoundTrip(items: seq<Value>, t: uint8, rest: seq<uint8>)
    requires IsSliceElementType(t)
    requires forall k :: 0 <= k < |items| ==> Encodable(items[k]) && HasElementType(items[k], t)
    ensures DecodeItems(ItemsPayload(items) + rest, t, |items|) == Decoded(Success(items), rest)
    decreases items, 3
  {
    if |items| > 0 {
      var head := items[0];
      var others := items[1..];
      assert forall k :: 0 <= k < |others| ==> others[k] == items[k + 1];
      var tail := ItemsPayload(others) + rest;
      assert ItemsPayload(items) + rest == Payload(head) + tail by {
        assert ItemsPayload(items) == Payload(head) + ItemsPayload(others);
      }
      var buf := Payload(head) + tail;
      ElementRoundTrip(head, t, tail);
      assert DecodeElement(buf, t) == Decoded(Success(head), tail);
      ItemsRoundTrip(others, t, rest);
      assert DecodeItems(tail, t, |items| - 1) == Decoded(Success(others), rest);
      assert DecodeItems(buf, t, |items|) == Decoded(Success([head] + others), rest);
      assert [head] + others == items;
    }
  }

  lemma {:induction false} ElementRoundTrip(v: Value, t: uint8, rest: seq<uint8>)
    requires IsSliceElementType(t) && Encodable(v) && HasElementType(v, t)
    ensures DecodeElement(Payload(v) + rest, t) == Decoded(Success(v), rest)
    decreases v, 1
  {
    match v
    case Int16(i) => IntRoundTrip(i, 2, rest);
    case Int32(i) => IntRoundTrip(i, 4, rest);
    case Int64(i) => IntRoundTrip(i, 8, rest);
    case Float32(raw) => ReadFieldPrefix(raw, rest);
    case Bool(b) => ReadFieldPrefix(Payload(v), rest);
    case Str(text) => StringRoundTrip(text, rest);
    case Int8Slice(xs) => Int8SliceRoundTrip(xs, rest);
    case Slice(_, _) => SliceRoundTrip(v, rest);
  }

  // ---------------------------------------------------------------------------
  // Dictionaries: an encoder for the entries the decoder reads back
  // ---------------------------------------------------------------------------

  /** Entries whose keys all carry tag `kt` and whose values all carry tag `vt`. */
  predicate EntriesOfTypes(entries: seq<(Value, Value)>, kt: uint8, vt: uint8) {
    forall k :: 0 <= k < |entries| ==>
      && Encodable(entries[k].0) && TagOf(entries[k].0) == kt
      && Encodable(entries[k].1) && TagOf(entries[k].1) == vt
  }

  /** Each key's payload followed by its value's payload, in order. */
  function EntriesPayload(entries: seq<(Value, Value)>, kt: uint8, vt: uint8): seq<uint8>
    requires EntriesOfTypes(entries, kt, vt)
  {
    if |entries| == 0 then []
    else Payload(entries[0].0) + Payload(entries[0].1) + EntriesPayload(entries[1..], kt, vt)
  }

  /** The wire form after tag 68: key tag, value tag, a two-byte count, then the entries. */
  function DictionaryPayload(entries: seq<(Value, Value)>, kt: uint8, vt: uint8): seq<uint8>
    requires EntriesOfTypes(entries, kt, vt) && |entries| < Pow256(2)
  {
    [kt, vt] + ToBytes(|entries|, 2) + EntriesPayload(entries, kt, vt)
  }

  lemma {:induction false} EntriesRoundTrip(entries: seq<(Value, Value)>, kt: uint8, vt: uint8, rest: seq<uint8>)
    requires EntriesOfTypes(entries, kt, vt)
    ensures DecodeEntries(EntriesPayload(entries, kt, vt) + rest, kt, vt, |entries|) == Decoded(entries, rest)
    decreases |entries|
  {
    if |entries| > 0 {
      var (key, value) := entries[0];
      var others := entries[1..];
      assert EntriesOfTypes(others, kt, vt) by {
        assert forall k :: 0 <= k < |others| ==> others[k] == entries[k + 1];
      }
      var tail := EntriesPayload(others, kt, vt) + rest;
      var buf := Payload(key) + (Payload(value) + tail);
      assert EntriesPayload(entries, kt, vt) + rest == buf by {
        AppendAssociative(Payload(key), Payload(value), EntriesPayload(others, kt, vt));
        AppendAssociative(Payload(key) + Payload(value), EntriesPayload(others, kt, vt), rest);
        AppendAssociative(Payload(key), Payload(value), tail);
      }
      RoundTrip(key, Payload(value) + tail);
      RoundTrip(value, tail);
      assert DecodeEntry(buf, kt, vt) == Decoded((key, value), tail);
      EntriesRoundTrip(others, kt, vt, rest);
      assert [(key, value)] + others == entries;
    }
  }

  /**
   * Decoding a dictionary written as key tag, value tag, count and entries
   * gives the map the entries build when assigned in order: with distinct
   * keys, exactly the map from each key to its value.
   */
  lemma DictionaryRoundTrip(entries: seq<(Value, Value)>, kt: uint8, vt: uint8, rest: seq<uint8>)
    requires EntriesOfTypes(entries, kt, vt) && |entries| < Pow256(2)
    ensures DecodeType(DictionaryPayload(entries, kt, vt) + rest, DictionaryType) == Decoded(Dict(LastWins(entries)), rest)
  {
    var count := ToBytes(|entries|, 2);
    var body := EntriesPayload(entries, kt, vt) + rest;
    var buf := DictionaryPayload(entries, kt, vt) + rest;
    assert buf == [kt, vt] + count + body;
    assert buf[0] == kt && buf[1] == vt;
    assert buf[2..4] == count;
    assert buf[4..] == body;
    BigEndianToBytes(|entries|, 2);
    DictionaryTag(buf);
    EntriesRoundTrip(entries, kt, vt, rest);
  }
}

=== FILE: fragment_buffer.dfy ===
/**
 * Reassembly of Photon reliable messages that arrive split into fragments.
 * Fragments of one message share a sequence number; each carries its index
 * and the number of fragments in the group. Incomplete groups wait in a
 * least-recently-used cache of 128 entries; when a group holds as many
 * distinct indices as it needs, its pieces are joined in index order into a
 * SendReliable command and the group leaves the cache.
 */
module FragmentBuffer {
  import opened Wrappers
  import Lru

  /** Number of incomplete groups the cache keeps. */
  const FragmentBufferSize: nat := 128

  datatype ReliableFragment = ReliableFragment(
    sequenceNumber: int,
    fragmentCount: int,
    fragmentNumber: int,
    data: seq<bv8>)

  /** One group being assembled: the count its first fragment carried and the pieces so far. */
  datatype Entry = Entry(sequenceNumber: int, fragmentsNeeded: int, fragments: map<int, seq<bv8>>)

  datatype CommandType = SendReliableType

  datatype PhotonCommand = PhotonCommand(commandType: CommandType, data: seq<bv8>, reliableSequenceNumber: int)

  datatype Buffer = Buffer(cache: Lru.Cache<Entry>)

  /** The group stored under sequence number `s`, if any. */
  function Stored(b: Buffer, s: int): Option<Entry> {
    Lru.Lookup(b.cache.entries, s)
  }

  /** The cache invariant, and every group is filed under its own sequence number. */
  ghost predicate Valid(b: Buffer) {
    && Lru.Valid(b.cache, FragmentBufferSize)
    && forall s :: Stored(b, s).Some? ==> Stored(b, s).value.sequenceNumber == s
  }

  /** `NewFragmentBuffer`: an empty cache. */
  function NewFragmentBuffer(): (b: Buffer)
    ensures Valid(b)
    ensures forall s :: Stored(b, s).None?
  {
    Buffer(Lru.Cache([]))
  }

  /** `Finished`: as many distinct indices are stored as the group needs. */
  predicate Finished(e: Entry) {
    |e.fragments| == e.fragmentsNeeded
  }

  /** The piece stored at index i; a missing index reads as an empty slice. */
  function Piece(fragments: map<int, seq<bv8>>, i: int): seq<bv8> {
    if i in fragments then fragments[i] else []
  }

  /** The pieces at indices 0 .. n-1, joined in index order. */
  function Assemble(fragments: map<int, seq<bv8>>, n: int): seq<bv8>
    decreases n
  {
    if n <= 0 then [] else Assemble(fragments, n - 1) + Piece(fragments, n - 1)
  }

  /** `Make`: the SendReliable command carrying the joined pieces. */
  function Make(e: Entry): PhotonCommand {
    PhotonCommand(SendReliableType, Assemble(e.fragments, e.fragmentsNeeded), e.sequenceNumber)
  }

  /** The group after `msg` joins it: a stored group keeps its count; otherwise `msg` starts one. */
  function Merge(stored: Option<Entry>, msg: ReliableFragment): Entry {
    match stored
    case Some(e) => e.(fragments := e.fragments[msg.fragmentNumber := msg.data])
    case None => Entry(msg.sequenceNumber, msg.fragmentCount, map[msg.fragmentNumber := msg.data])
  }

  /**
   * `Offer`. The fragment's piece is filed under its index, overwriting an
   * earlier piece with the same index; the group's count is the one its
   * first fragment carried. A finished group is returned as a command and
   * dropped from the cache; an unfinished one is stored as most recently
   * used. No other group is altered, though a new group may evict the
   * least recently used one.
   */
  function Offer(b: Buffer, msg: ReliableFragment): (r: (Buffer, Option<PhotonCommand>))
    requires Valid(b)
    ensures Valid(r.0)
    ensures var s := msg.sequenceNumber;
      var prior := Stored(b, s);
      var needed := if prior.Some? then prior.value.fragmentsNeeded else msg.fragmentCount;
      var fragments := if prior.Some? then prior.value.fragments[msg.fragmentNumber := msg.data]
                       else map[msg.fragmentNumber := msg.data];
      && (r.1.Some? <==> |fragments| == needed)
      && (r.1.Some? ==>
            && r.1.value == PhotonCommand(SendReliableType, Assemble(fragments, needed), s)
            && Stored(r.0, s).None?)
      && (r.1.None? ==> Stored(r.0, s) == Some(Entry(s, needed, fragments)))
    ensures r.1.Some? || Stored(b, msg.sequenceNumber).Some? || |b.cache.entries| < FragmentBufferSize ==>
      forall j :: j != msg.sequenceNumber ==> Stored(r.0, j) == Stored(b, j)
    ensures r.1.None? && Stored(b, msg.sequenceNumber).None? && |b.cache.entries| == FragmentBufferSize ==>
      forall j :: j != msg.sequenceNumber ==>
        Stored(r.0, j) == if j == b.cache.entries[0].0 then None else Stored(b, j)
  {
    var s := msg.sequenceNumber;
    var got := Lru.Get(b.cache, s);
    var entry := Merge(got.0, msg);
    assert got.0 == Stored(b, s);
    assert entry.sequenceNumber == s;
    if Finished(entry) then
      var cache := Lru.Remove(got.1, s);
      assert forall j :: j != s ==> Stored(Buffer(cache), j) == Stored(b, j);
      assert Stored(Buffer(cache), s).None?;
      (Buffer(cache), Some(Make(entry)))
    else
      var cache := Lru.Add(got.1, s, entry, FragmentBufferSize);
      StoreFrame(b, s, entry);
      assert Stored(Buffer(cache), s) == Some(entry);
      (Buffer(cache), None)
  }

  /**
   * Storing a group after looking it up: another group is evicted only when
   * the group is new and the cache is full, and then it is the least
   * recently used one.
   */
  lemma StoreFrame(b: Buffer, s: int, entry: Entry)
    requires Valid(b)
    ensures var r := Buffer(Lru.Add(Lru.Get(b.cache, s).1, s, entry, FragmentBufferSize));
      && (Stored(b, s).Some? || |b.cache.entries| < FragmentBufferSize ==>
            forall j :: j != s ==> Stored(r, j) == Stored(b, j))
      && (Stored(b, s).None? && |b.cache.entries| == FragmentBufferSize ==>
            forall j :: j != s ==> Stored(r, j) == if j == b.cache.entries[0].0 then None else Stored(b, j))
  {
    var got := Lru.Get(b.cache, s);
    assert got.0.None? ==> got.1 == b.cache;
  }

  // ---------------------------------------------------------------------------
  // Properties of a group
  // ---------------------------------------------------------------------------

  /** Delivering an index a second time replaces its piece and leaves the count of distinct indices alone. */
  lemma RedeliveryKeepsCount(e: Entry, i: int, data: seq<bv8>)
    requires i in e.fragments
    ensures |e.fragments[i := data]| == |e.fragments|
    ensures Finished(e.(fragments := e.fragments[i := data])) == Finished(e)
  {
    assert e.fragments[i := data].Keys == e.fragments.Keys;
  }

  /** An index the group lacks contributes nothing: it reads like an empty piece. */
  lemma {:induction false} MissingPieceIsEmpty(fragments: map<int, seq<bv8>>, i: int, n: int)
    requires i !in fragments
    ensures Assemble(fragments[i := []], n) == Assemble(fragments, n)
    decreases n
  {
    if n > 0 {
      MissingPieceIsEmpty(fragments, i, n - 1);
    }
  }

  /** Pieces at indices outside 0 .. n-1 are never part of the command. */
  lemma {:induction false} OutOfRangeIgnored(fragments: map<int, seq<bv8>>, i: int, data: seq<bv8>, n: int)
    requires i < 0 || i >= n
    ensures Assemble(fragments[i := data], n) == Assemble(fragments, n)
    decreases n
  {
    if n > 0 {
      OutOfRangeIgnored(fragments, i, data, n - 1);
    }
  }

  /** The pieces joined in order. */
  function Flatten(pieces: seq<seq<bv8>>): seq<bv8>
  {
    if |pieces| == 0 then [] else Flatten(pieces[..|pieces| - 1]) + pieces[|pieces| - 1]
  }

  /** When index i holds pieces[i] for every i below n, the command's data is the pieces in order. */
  lemma {:induction false} AssembleInOrder(fragments: map<int, seq<bv8>>, pieces: seq<seq<bv8>>, n: nat)
    requires n <= |pieces|
    requires forall i :: 0 <= i < n ==> i in fragments && fragments[i] == pieces[i]
    ensures Assemble(fragments, n) == Flatten(pieces[..n])
    decreases n
  {
    if n > 0 {
      AssembleInOrder(fragments, pieces, n - 1);
      assert pieces[..n][..n - 1] == pieces[..n - 1];
    }
  }

  // ---------------------------------------------------------------------------
  // A whole group offered in some order
  // ---------------------------------------------------------------------------

  /**
   * `states` and `outputs` record offering `msgs` one after another starting
   * from `b`: offer j turns `states[j]` into `states[j + 1]` and returns
   * `outputs[j]`.
   */
  ghost predicate IsRun(b: Buffer, msgs: seq<ReliableFragment>, states: seq<Buffer>, outputs: seq<Option<PhotonCommand>>) {
    && |states| == |msgs| + 1
    && |outputs| == |msgs|
    && states[0] == b
    && forall j :: 0 <= j < |msgs| ==> StepAt(msgs, states, outputs, j)
  }

  /** Offer j of a run is made to a valid state, turns it into the next one and returns `outputs[j]`. */
  ghost predicate StepAt(msgs: seq<ReliableFragment>, states: seq<Buffer>, outputs: seq<Option<PhotonCommand>>, j: int)
    requires 0 <= j < |msgs| && |states| == |msgs| + 1 && |outputs| == |msgs|
  {
    Valid(states[j]) && Offer(states[j], msgs[j]) == (states[j + 1], outputs[j])
  }

  /** A run extended by one more offer is a run. */
  lemma RunSnoc(b: Buffer, msgs: seq<ReliableFragment>, msg: ReliableFragment,
                states: seq<Buffer>, outputs: seq<Option<PhotonCommand>>)
    requires IsRun(b, msgs, states, outputs) && Valid(states[|msgs|])
    ensures var last := Offer(states[|msgs|], msg);
      IsRun(b, msgs + [msg], states + [last.0], outputs + [last.1])
  {
    var last := Offer(states[|msgs|], msg);
    var msgs' := msgs + [msg];
    var states' := states + [last.0];
    var outputs' := outputs + [last.1];
    forall j | 0 <= j < |msgs'|
      ensures StepAt(msgs', states', outputs', j)
    {
      if j < |msgs| {
        assert StepAt(msgs, states, outputs, j);
        assert states'[j] == states[j] && states'[j + 1] == states[j + 1];
        assert outputs'[j] == outputs[j] && msgs'[j] == msgs[j];
      }
    }
  }

  /** The run extended by offering `msg` to its last state. */
  function Extend(b: Buffer, msgs: seq<ReliableFragment>, msg: ReliableFragment,
                  states: seq<Buffer>, outputs: seq<Option<PhotonCommand>>): (r: (seq<Buffer>, seq<Option<PhotonCommand>>))
    requires IsRun(b, msgs, states, outputs) && Valid(states[|msgs|])
    ensures IsRun(b, msgs + [msg], r.0, r.1)
    ensures Valid(r.0[|msgs| + 1])
  {
    var last := Offer(states[|msgs|], msg);
    RunSnoc(b, msgs, msg, states, outputs);
    (states + [last.0], outputs + [last.1])
  }

  /** Offers `msgs` one after another; what it records is a run. */
  function Replay(b: Buffer, msgs: seq<ReliableFragment>): (r: (seq<Buffer>, seq<Option<PhotonCommand>>))
    requires Valid(b)
    ensures IsRun(b, msgs, r.0, r.1)
    ensures Valid(r.0[|msgs|])
    decreases |msgs|
  {
    if |msgs| == 0 then ([b], [])
    else
      var init := msgs[..|msgs| - 1];
      var before := Replay(b, init);
      assert init + [msgs[|msgs| - 1]] == msgs;
      Extend(b, init, msgs[|msgs| - 1], before.0, before.1)
  }

  /** Every entry of `perm` is an index below n. */
  predicate IndicesBelow(perm: seq<int>, n: nat) {
    forall j :: 0 <= j < |perm| ==> 0 <= perm[j] < n
  }

  /**
   * Entry j of `xs`. Distinctness is stated over this name so that a proof
   * only compares the entries it names.
   */
  function At(xs: seq<int>, j: int): int
    requires 0 <= j < |xs|
  {
    xs[j]
  }

  /** No entry of `xs` occurs twice. */
  predicate Distinct(xs: seq<int>) {
    forall j, k :: 0 <= j < k < |xs| ==> At(xs, j) != At(xs, k)
  }

  /** `perm` lists each of the indices 0 .. n-1 exactly once. */
  predicate IsPermutation(perm: seq<int>, n: nat) {
    && |perm| == n
    && IndicesBelow(perm, n)
    && (forall i :: 0 <= i < n ==> i in perm)
    && Distinct(perm)
  }

  /** The fragment sent k-th when piece i is `pieces[i]` and the order is `perm`. */
  function FragmentAt(s: int, perm: seq<int>, pieces: seq<seq<bv8>>, k: nat): ReliableFragment
    requires IsPermutation(perm, |pieces|) && k < |perm|
  {
    ReliableFragment(s, |pieces|, perm[k], pieces[perm[k]])
  }

  /** The fragments of group `s`, piece i being `pieces[i]`, sent in the order `perm`. */
  function Fragments(s: int, perm: seq<int>, pieces: seq<seq<bv8>>): (msgs: seq<ReliableFragment>)
    requires IsPermutation(perm, |pieces|)
    ensures |msgs| == |perm|
    ensures forall k :: 0 <= k < |perm| ==> msgs[k] == FragmentAt(s, perm, pieces, k)
  {
    seq(|perm|, k requires 0 <= k < |perm| => FragmentAt(s, perm, pieces, k))
  }

  function IndexSet(xs: seq<int>): set<int> {
    set x | x in xs
  }

  lemma IndexSetSnoc(xs: seq<int>, x: int)
    ensures IndexSet(xs + [x]) == IndexSet(xs) + {x}
  {
    assert forall y :: y in xs + [x] <==> y in xs || y == x;
  }

  lemma {:induction false} DistinctCard(xs: seq<int>)
    requires Distinct(xs)
    ensures |IndexSet(xs)| == |xs|
    decreases |xs|
  {
    if |xs| > 0 {
      var init := xs[..|xs| - 1];
      assert Distinct(init) by {
        assert forall j | 0 <= j < |init| :: At(init, j) == At(xs, j);
      }
      DistinctCard(init);
      assert xs == init + [xs[|xs| - 1]];
      IndexSetSnoc(init, xs[|xs| - 1]);
      forall j | 0 <= j < |init|
        ensures init[j] != xs[|xs| - 1]
      {
        assert At(xs, j) != At(xs, |xs| - 1);
      }
    }
  }

  /** The pieces of the first k fragments sent, filed by index. */
  function PrefixMap(perm: seq<int>, pieces: seq<seq<bv8>>, k: nat): map<int, seq<bv8>>
    requires IndicesBelow(perm, |pieces|) && k <= |perm|
  {
    map i | i in perm[..k] :: pieces[i]
  }

  /** What the cache holds for group `s` after the first k fragments. */
  ghost predicate HoldsPrefix(b: Buffer, s: int, perm: seq<int>, pieces: seq<seq<bv8>>, k: nat)
    requires IsPermutation(perm, |pieces|) && k <= |perm|
  {
    Stored(b, s) == Some(Entry(s, |pieces|, PrefixMap(perm, pieces, k)))
  }

  /** The state before the k-th fragment: nothing stored yet, or the first k pieces. */
  ghost predicate Before(b: Buffer, s: int, perm: seq<int>, pieces: seq<seq<bv8>>, k: nat)
    requires IsPermutation(perm, |pieces|) && k <= |perm|
  {
    if k == 0 then Stored(b, s).None? else HoldsPrefix(b, s, perm, pieces, k)
  }

  /** Once every fragment is in, the pieces come out in index order. */
  lemma FullAssembly(perm: seq<int>, pieces: seq<seq<bv8>>)
    requires IsPermutation(perm, |pieces|)
    ensures Assemble(PrefixMap(perm, pieces, |pieces|), |pieces|) == Flatten(pieces)
  {
    var n := |pieces|;
    var m := PrefixMap(perm, pieces, n);
    assert perm[..n] == perm;
    forall i | 0 <= i < n
      ensures i in m && m[i] == pieces[i]
    {
      assert i in perm;
    }
    AssembleInOrder(m, pieces, n);
    assert pieces[..n] == pieces;
  }

  /** The indices the first k pieces are filed under. */
  lemma PrefixKeys(perm: seq<int>, pieces: seq<seq<bv8>>, k: nat)
    requires IndicesBelow(perm, |pieces|) && k <= |perm|
    ensures PrefixMap(perm, pieces, k).Keys == IndexSet(perm[..k])
  {
  }

  /** The first k fragments carry k distinct indices. */
  lemma PrefixCard(perm: seq<int>, pieces: seq<seq<bv8>>, k: nat)
    requires IndicesBelow(perm, |pieces|) && Distinct(perm) && k <= |perm|
    ensures |PrefixMap(perm, pieces, k)| == k
  {
    var m := PrefixMap(perm, pieces, k);
    PrefixKeys(perm, pieces, k);
    assert Distinct(perm[..k]) by {
      assert forall j | 0 <= j < k :: At(perm[..k], j) == At(perm, j);
    }
    DistinctCard(perm[..k]);
    assert |m| == |m.Keys|;
  }

  /** Adding the k-th fragment's piece to the first k pieces gives the first k + 1. */
  lemma PrefixStep(perm: seq<int>, pieces: seq<seq<bv8>>, k: nat)
    requires IndicesBelow(perm, |pieces|) && k < |perm|
    ensures PrefixMap(perm, pieces, k)[perm[k] := pieces[perm[k]]] == PrefixMap(perm, pieces, k + 1)
  {
    var grown := PrefixMap(perm, pieces, k)[perm[k] := pieces[perm[k]]];
    var next := PrefixMap(perm, pieces, k + 1);
    assert grown.Keys == next.Keys by {
      PrefixKeys(perm, pieces, k);
      PrefixKeys(perm, pieces, k + 1);
      assert perm[..k + 1] == perm[..k] + [perm[k]];
      IndexSetSnoc(perm[..k], perm[k]);
    }
    assert forall i | i in grown :: grown[i] == pieces[i] == next[i];
  }

  /** The same, together with the count of distinct indices the first k + 1 fragments carry. */
  lemma GrowPrefix(perm: seq<int>, pieces: seq<seq<bv8>>, k: nat)
    requires IndicesBelow(perm, |pieces|) && Distinct(perm) && k < |perm|
    ensures PrefixMap(perm, pieces, k)[perm[k] := pieces[perm[k]]] == PrefixMap(perm, pieces, k + 1)
    ensures |PrefixMap(perm, pieces, k + 1)| == k + 1
  {
    PrefixStep(perm, pieces, k);
    PrefixCard(perm, pieces, k + 1);
  }

  /**
   * Offer seen from the group's side: with `needed` and `fragments` the
   * count and pieces after merging, the group is either complete and
   * returned, or stored.
   */
  lemma OfferOutcome(b: Buffer, msg: ReliableFragment, needed: int, fragments: map<int, seq<bv8>>)
    requires Valid(b)
    requires var prior := Stored(b, msg.sequenceNumber);
      && needed == (if prior.Some? then prior.value.fragmentsNeeded else msg.fragmentCount)
      && fragments == if prior.Some? then prior.value.fragments[msg.fragmentNumber := msg.data]
                      else map[msg.fragmentNumber := msg.data]
    ensures var r := Offer(b, msg);
      && (|fragments| == needed ==>
            && r.1 == Some(PhotonCommand(SendReliableType, Assemble(fragments, needed), msg.sequenceNumber))
            && Stored(r.0, msg.sequenceNumber).None?)
      && (|fragments| != needed ==>
            r.1.None? && Stored(r.0, msg.sequenceNumber) == Some(Entry(msg.sequenceNumber, needed, fragments)))
  {
  }

  /** The k-th fragment merged into what the group held before it gives the first k + 1 pieces. */
  lemma NextPieces(b: Buffer, s: int, perm: seq<int>, pieces: seq<seq<bv8>>, k: nat)
    requires IsPermutation(perm, |pieces|) && k < |pieces|
    requires Before(b, s, perm, pieces, k)
    ensures var msg := FragmentAt(s, perm, pieces, k);
      var prior := Stored(b, s);
      var next := PrefixMap(perm, pieces, k + 1);
      && |next| == k + 1
      && next == (if prior.Some? then prior.value.fragments[msg.fragmentNumber := msg.data]
                  else map[msg.fragmentNumber := msg.data])
      && (if prior.Some? then prior.value.fragmentsNeeded else msg.fragmentCount) == |pieces|
  {
    GrowPrefix(perm, pieces, k);
    if k == 0 {
      assert perm[..0] == [];
      assert PrefixMap(perm, pieces, 0) == map[];
    }
  }

  /** One more fragment of the group: it finishes the group exactly when it is the last one. */
  lemma OfferNext(b: Buffer, s: int, perm: seq<int>, pieces: seq<seq<bv8>>, k: nat)
    requires Valid(b) && IsPermutation(perm, |pieces|) && k < |pieces|
    requires Before(b, s, perm, pieces, k)
    ensures var r := Offer(b, FragmentAt(s, perm, pieces, k));
      && (k + 1 < |pieces| ==> r.1.None? && HoldsPrefix(r.0, s, perm, pieces, k + 1))
      && (k + 1 == |pieces| ==>
            r.1 == Some(PhotonCommand(SendReliableType, Flatten(pieces), s)) && Stored(r.0, s).None?)
  {
    NextPieces(b, s, perm, pieces, k);
    OfferOutcome(b, FragmentAt(s, perm, pieces, k), |pieces|, PrefixMap(perm, pieces, k + 1));
    if k + 1 == |pieces| {
      FullAssembly(perm, pieces);
    }
  }

  /** Offer j of a run over the group's fragments, made to the state before fragment j. */
  lemma RunStep(
    b: Buffer, s: int, perm: seq<int>, pieces: seq<seq<bv8>>,
    states: seq<Buffer>, outputs: seq<Option<PhotonCommand>>, j: nat)
    requires IsPermutation(perm, |pieces|) && j < |pieces|
    requires IsRun(b, Fragments(s, perm, pieces), states, outputs)
    requires Before(states[j], s, perm, pieces, j)
    ensures j + 1 < |pieces| ==> outputs[j].None? && Valid(states[j + 1]) && Before(states[j + 1], s, perm, pieces, j + 1)
    ensures j + 1 == |pieces| ==>
      outputs[j] == Some(PhotonCommand(SendReliableType, Flatten(pieces), s)) && Stored(states[j + 1], s).None?
  {
    assert StepAt(Fragments(s, perm, pieces), states, outputs, j);
    OfferNext(states[j], s, perm, pieces, j);
  }

  /**
   * After the first k fragments: before the last one nothing has been
   * returned and the group holds exactly their pieces; the last one returns
   * the whole message and empties the group's slot.
   */
  lemma {:induction false} OfferPrefix(
    b: Buffer, s: int, perm: seq<int>, pieces: seq<seq<bv8>>,
    states: seq<Buffer>, outputs: seq<Option<PhotonCommand>>, k: nat)
    requires Valid(b) && Stored(b, s).None?
    requires IsPermutation(perm, |pieces|) && k <= |pieces|
    requires IsRun(b, Fragments(s, perm, pieces), states, outputs)
    ensures forall j :: 0 <= j < k && j < |pieces| - 1 ==> outputs[j].None?
    ensures k < |pieces| ==> Valid(states[k]) && Before(states[k], s, perm, pieces, k)
    ensures k == |pieces| > 0 ==>
      outputs[k - 1] == Some(PhotonCommand(SendReliableType, Flatten(pieces), s)) && Stored(states[k], s).None?
    decreases k
  {
    if k > 0 {
      OfferPrefix(b, s, perm, pieces, states, outputs, k - 1);
      RunStep(b, s, perm, pieces, states, outputs, k - 1);
    }
  }

  /**
   * Offering the fragments 0 .. n-1 of a group the cache does not hold, once
   * each and in any order, with count n: only the last offer returns a
   * command, its data is the pieces joined in index order, and the group is
   * gone from the cache afterwards.
   */
  lemma CompleteGroup(
    b: Buffer, s: int, perm: seq<int>, pieces: seq<seq<bv8>>,
    states: seq<Buffer>, outputs: seq<Option<PhotonCommand>>)
    requires Valid(b) && Stored(b, s).None?
    requires |pieces| >= 1 && IsPermutation(perm, |pieces|)
    requires IsRun(b, Fragments(s, perm, pieces), states, outputs)
    ensures forall j :: 0 <= j < |pieces| - 1 ==> outputs[j].None?
    ensures outputs[|pieces| - 1] == Some(PhotonCommand(SendReliableType, Flatten(pieces), s))
    ensures Stored(states[|pieces|], s).None?
  {
    OfferPrefix(b, s, perm, pieces, states, outputs, |pieces|);
  }

  /** The same, for the states and results `Replay` computes. */
  lemma ReplayCompletesGroup(b: Buffer, s: int, perm: seq<int>, pieces: seq<seq<bv8>>)
    requires Valid(b) && Stored(b, s).None?
    requires |pieces| >= 1 && IsPermutation(perm, |pieces|)
    ensures var r := Replay(b, Fragments(s, perm, pieces));
      && (forall j :: 0 <= j < |pieces| - 1 ==> r.1[j].None?)
      && r.1[|pieces| - 1] == Some(PhotonCommand(SendReliableType, Flatten(pieces), s))
  {
    var r := Replay(b, Fragments(s, perm, pieces));
    CompleteGroup(b, s, perm, pieces, r.0, r.1);
  }
}

=== FILE: go_text.dfy ===
/**
 * The handful of Go standard-library text routines the client leans on:
 * decimal formatting (`fmt`'s `%d`), `strconv.Atoi` on a 64-bit platform,
 * and `strings.Split`, `strings.HasPrefix`, `strings.Contains` and
 * `strings.Replace(s, old, new, -1)`. Go strings are byte strings; here a
 * string is a `seq<char>` and every character stands for one byte.
 */
module GoText {

  const MinInt64: int := -0x8000_0000_0000_0000
  const MaxInt64: int := 0x7fff_ffff_ffff_ffff
  const MaxUint64: int := 0xffff_ffff_ffff_ffff

  predicate IsDigit(c: char) {
    '0' <= c <= '9'
  }

  predicate AllDigits(s: string) {
    forall i :: 0 <= i < |s| ==> IsDigit(s[i])
  }

  function DigitValue(c: char): (d: nat)
    requires IsDigit(c)
    ensures d < 10
  {
    (c as int) - ('0' as int)
  }

  function DigitChar(d: nat): (c: char)
    requires d < 10
    ensures IsDigit(c) && DigitValue(c) == d
  {
    ('0' as int + d) as char
  }

  // ---------------------------------------------------------------------------
  // Decimal formatting and parsing
  // ---------------------------------------------------------------------------

  /** Decimal digits of `n`, most significant first, without leading zeros. */
  function FormatNat(n: nat): (s: string)
    ensures 1 <= |s|
    ensures AllDigits(s)
    ensures |s| > 1 ==> s[0] != '0'
    decreases n
  {
    if n < 10 then [DigitChar(n)] else FormatNat(n / 10) + [DigitChar(n % 10)]
  }

  /** `fmt.Sprintf("%d", n)`: an optional minus sign, then the digits of |n|. */
  function FormatInt(n: int): (s: string)
    ensures 1 <= |s|
    ensures n < 0 <==> s[0] == '-'
    ensures n >= 0 ==> AllDigits(s)
  {
    if n < 0 then "-" + FormatNat(-n) else FormatNat(n)
  }

  /** The number a run of decimal digits denotes. */
  function DigitsValue(s: string): nat
    requires AllDigits(s)
  {
    if |s| == 0 then 0 else DigitsValue(s[..|s| - 1]) * 10 + DigitValue(s[|s| - 1])
  }

  function Pow10(k: nat): (p: nat)
    ensures p >= 1
  {
    if k == 0 then 1 else 10 * Pow10(k - 1)
  }

  /** k decimal digits denote a number below 10^k. */
  lemma {:induction false} DigitsValueBelow(s: string)
    requires AllDigits(s)
    ensures DigitsValue(s) < Pow10(|s|)
  {
    if |s| > 0 {
      DigitsValueBelow(s[..|s| - 1]);
    }
  }

  lemma {:induction false} Pow10Grows(a: nat, b: nat)
    requires a <= b
    ensures Pow10(a) <= Pow10(b)
    decreases b
  {
    if a < b {
      Pow10Grows(a, b - 1);
    }
  }

  lemma Pow10Of19()
    ensures Pow10(19) == 10_000_000_000_000_000_000
  {
    assert Pow10(9) == 1_000_000_000;
  }

  /** Length of the run of decimal digits `s` starts with. */
  function DigitRun(s: string): (n: nat)
    ensures n <= |s|
    ensures forall k :: 0 <= k < n ==> IsDigit(s[k])
    ensures n < |s| ==> !IsDigit(s[n])
  {
    if |s| == 0 || !IsDigit(s[0]) then 0 else 1 + DigitRun(s[1..])
  }

  /**
   * The digits `s` starts with already exceed the uint64 range. Go's
   * `strconv.ParseUint` scans digit by digit and reports the overflow at the
   * digit that causes it, before it reaches any later non-digit.
   */
  predicate LeadOverflows(s: string) {
    DigitsValue(s[..DigitRun(s)]) > MaxUint64
  }

  /** Reading back what `FormatNat` wrote gives the number again. */
  lemma {:induction false} DigitsValueOfFormatNat(n: nat)
    ensures DigitsValue(FormatNat(n)) == n
    decreases n
  {
    if n >= 10 {
      var s := FormatNat(n);
      assert s[..|s| - 1] == FormatNat(n / 10);
      DigitsValueOfFormatNat(n / 10);
    }
  }

  /** Result of `strconv.Atoi`: the value it returns and whether its error was nil. */
  datatype Parsed = Parsed(value: int, ok: bool)

  predicate IsSign(c: char) {
    c == '+' || c == '-'
  }

  /** The part of `s` after an optional leading sign. */
  function Unsigned(s: string): string {
    if |s| > 0 && IsSign(s[0]) then s[1..] else s
  }

  /**
   * `strconv.Atoi` on a 64-bit platform: an optional sign followed by at least
   * one decimal digit and nothing else. A number outside the int64 range is a
   * range error whose value is the nearest int64 bound. Any other text is a
   * syntax error with value 0, unless the digits before the first bad
   * character already overflow uint64: then the scan stops there with a range
   * error, and the value is again the int64 bound on the side of the sign.
   */
  function Atoi(s: string): (r: Parsed)
    ensures r.ok ==> MinInt64 <= r.value <= MaxInt64
    ensures r.ok ==> |s| > 0 && AllDigits(Unsigned(s)) && |Unsigned(s)| > 0
    ensures |Unsigned(s)| == 0 ==> r == Parsed(0, false)
    ensures !AllDigits(Unsigned(s)) ==> !r.ok
    ensures !AllDigits(Unsigned(s)) && !LeadOverflows(Unsigned(s)) ==> r.value == 0
    ensures !AllDigits(Unsigned(s)) && LeadOverflows(Unsigned(s)) ==>
      |s| > 0 && r.value == (if s[0] == '-' then MinInt64 else MaxInt64)
    ensures r.ok && r.value < 0 ==> s[0] == '-'
  {
    var body := Unsigned(s);
    if |body| == 0 then Parsed(0, false)
    else if !AllDigits(body) then
      if LeadOverflows(body) then Parsed(if s[0] == '-' then MinInt64 else MaxInt64, false)
      else Parsed(0, false)
    else
      var v: int := if s[0] == '-' then 0 - DigitsValue(body) else DigitsValue(body);
      if v > MaxInt64 then Parsed(MaxInt64, false)
      else if v < MinInt64 then Parsed(MinInt64, false)
      else Parsed(v, true)
  }

  /** Atoi undoes FormatInt on every int64. */
  lemma AtoiFormatInt(n: int)
    requires MinInt64 <= n <= MaxInt64
    ensures Atoi(FormatInt(n)) == Parsed(n, true)
  {
    var s := FormatInt(n);
    if n < 0 {
      assert Unsigned(s) == FormatNat(-n);
      DigitsValueOfFormatNat(-n);
    } else {
      assert Unsigned(s) == FormatNat(n);
      DigitsValueOfFormatNat(n);
    }
  }

  /**
   * A character that is neither a digit nor a leading sign makes Atoi fail.
   * Within the first 20 characters at most 19 digits precede it, too few to
   * overflow, so the value is 0.
   */
  lemma AtoiRejectsStrayCharacter(s: string, i: nat)
    requires i < |s| && !IsDigit(s[i]) && !(i == 0 && IsSign(s[i]))
    ensures !Atoi(s).ok
    ensures i < 20 ==> Atoi(s).value == 0
  {
    var body := Unsigned(s);
    var j := if |s| > 0 && IsSign(s[0]) then i - 1 else i;
    assert body[j] == s[i];
    if i < 20 {
      var n := DigitRun(body);
      assert n <= j;
      DigitsValueBelow(body[..n]);
      Pow10Grows(n, 19);
      Pow10Of19();
    }
  }

  /**
   * Digits beyond the uint64 range followed by a bad character: the range
   * error wins, with MaxInt64, or MinInt64 after a minus sign.
   */
  lemma AtoiOverflowBeforeStray(d: string, c: char, rest: string)
    requires AllDigits(d) && DigitsValue(d) > MaxUint64 && !IsDigit(c)
    ensures Atoi(d + [c] + rest) == Parsed(MaxInt64, false)
    ensures Atoi("-" + d + [c] + rest) == Parsed(MinInt64, false)
  {
    var body := d + [c] + rest;
    LeadRun(d, c, rest);
    assert LeadOverflows(body);
    assert |d| > 0 && body[0] == d[0];
    assert Unsigned(body) == body;
    assert "-" + d + [c] + rest == "-" + body;
    assert Unsigned("-" + body) == body;
  }

  /** The leading digit run of `d + [c] + rest` is `d` when `c` is not a digit. */
  lemma LeadRun(d: string, c: char, rest: string)
    requires AllDigits(d) && !IsDigit(c)
    ensures DigitRun(d + [c] + rest) == |d|
    ensures (d + [c] + rest)[..|d|] == d
  {
    var body := d + [c] + rest;
    assert body[|d|] == c;
    assert forall k :: 0 <= k < |d| ==> body[k] == d[k];
  }

  // ---------------------------------------------------------------------------
  // Searching
  // ---------------------------------------------------------------------------

  /** `strings.HasPrefix`. */
  predicate HasPrefix(s: string, prefix: string) {
    |prefix| <= |s| && s[..|prefix|] == prefix
  }

  /** `pattern` occurs in `s` starting at index `k`. */
  predicate OccursAt(s: string, pattern: string, k: int) {
    0 <= k && k + |pattern| <= |s| && s[k..k + |pattern|] == pattern
  }

  /** `strings.Contains`. */
  predicate Contains(s: string, pattern: string) {
    exists k :: 0 <= k <= |s| - |pattern| && OccursAt(s, pattern, k)
  }

  /** A pattern holding a character that `s` lacks does not occur in `s`. */
  lemma AbsentCharNoMatch(s: string, pattern: string, i: nat)
    requires i < |pattern| && pattern[i] !in s
    ensures !Contains(s, pattern)
  {
    forall k | 0 <= k <= |s| - |pattern|
      ensures !OccursAt(s, pattern, k)
    {
      assert s[k + i] == s[k..k + |pattern|][i];
    }
  }

  /** Index of the first `c` in `s`. */
  function IndexOf(s: string, c: char): (i: nat)
    requires c in s
    ensures i < |s| && s[i] == c && c !in s[..i]
  {
    if s[0] == c then 0 else 1 + IndexOf(s[1..], c)
  }

  /** A position holding `c` with no `c` before it is the first index of `c`. */
  lemma FirstIndex(s: string, c: char, j: nat)
    requires j < |s| && s[j] == c && c !in s[..j]
    ensures IndexOf(s, c) == j
  {
    var i := IndexOf(s, c);
    assert forall k | 0 <= k < j :: s[k] == s[..j][k];
    assert forall k | 0 <= k < i :: s[k] == s[..i][k];
  }

  // ---------------------------------------------------------------------------
  // strings.Split with a one-character separator
  // ---------------------------------------------------------------------------

  /** The pieces joined back together with `sep` between neighbours. */
  function Join(parts: seq<string>, sep: char): string {
    if |parts| == 0 then ""
    else if |parts| == 1 then parts[0]
    else parts[0] + [sep] + Join(parts[1..], sep)
  }

  /** Number of occurrences of `c` in `s`. */
  function Count(s: string, c: char): nat {
    if |s| == 0 then 0 else (if s[0] == c then 1 else 0) + Count(s[1..], c)
  }

  lemma {:induction false} CountPrefixFree(s: string, c: char, i: nat)
    requires i <= |s| && c !in s[..i]
    ensures Count(s, c) == Count(s[i..], c)
    decreases i
  {
    if i > 0 {
      assert s[0] in s[..i];
      assert s[1..][..i - 1] == s[1..i];
      CountPrefixFree(s[1..], c, i - 1);
      assert s[1..][i - 1..] == s[i..];
    }
  }

  lemma {:induction false} CountAbsent(s: string, c: char)
    requires c !in s
    ensures Count(s, c) == 0
  {
    CountPrefixFree(s, c, |s|);
    assert s[|s|..] == [];
  }

  /**
   * `strings.Split(s, string(sep))`: one piece per separator plus one, no
   * piece holds the separator, and joining the pieces gives `s` back.
   */
  function Split(s: string, sep: char): (parts: seq<string>)
    ensures |parts| == Count(s, sep) + 1
    ensures forall i :: 0 <= i < |parts| ==> sep !in parts[i]
    ensures Join(parts, sep) == s
    decreases |s|
  {
    if sep !in s then
      CountAbsent(s, sep);
      [s]
    else
      var i := IndexOf(s, sep);
      var rest := Split(s[i + 1..], sep);
      SplitStep(s, sep, i, rest);
      [s[..i]] + rest
  }

  /** Splitting text that starts with a separator-free piece and a separator. */
  lemma SplitAt(p: string, sep: char, r: string)
    requires sep !in p
    ensures Split(p + [sep] + r, sep) == [p] + Split(r, sep)
  {
    var s := p + [sep] + r;
    assert s[|p|] == sep;
    assert s[..|p|] == p;
    assert s[|p| + 1..] == r;
    FirstIndex(s, sep, |p|);
  }

  /** One step of `Split`: the piece before the first separator, then the pieces of the remainder. */
  lemma SplitStep(s: string, sep: char, i: nat, rest: seq<string>)
    requires i < |s| && s[i] == sep && sep !in s[..i]
    requires |rest| == Count(s[i + 1..], sep) + 1
    requires forall k :: 0 <= k < |rest| ==> sep !in rest[k]
    requires Join(rest, sep) == s[i + 1..]
    ensures |[s[..i]] + rest| == Count(s, sep) + 1
    ensures forall k :: 0 <= k < |[s[..i]] + rest| ==> sep !in ([s[..i]] + rest)[k]
    ensures Join([s[..i]] + rest, sep) == s
  {
    var parts := [s[..i]] + rest;
    CountPrefixFree(s, sep, i);
    assert s[i..][1..] == s[i + 1..];
    assert parts[1..] == rest;
    assert Join(parts, sep) == s[..i] + [sep] + s[i + 1..];
    assert s == s[..i] + [sep] + s[i + 1..];
    forall k | 0 <= k < |parts|
      ensures sep !in parts[k]
    {
      if k > 0 {
        assert parts[k] == rest[k - 1];
      }
    }
  }

  // ---------------------------------------------------------------------------
  // strings.Replace(s, old, new, -1) for a non-empty `old`
  // ---------------------------------------------------------------------------

  /**
   * Every non-overlapping occurrence of `pat`, scanning left to right, is
   * replaced by `repl`; the text in between is kept.
   */
  function ReplaceAll(s: string, pat: string, repl: string): string
    requires |pat| > 0
    decreases |s|
  {
    if |s| < |pat| then s
    else if s[..|pat|] == pat then repl + ReplaceAll(s[|pat|..], pat, repl)
    else [s[0]] + ReplaceAll(s[1..], pat, repl)
  }

  /** Text in which `pat` does not occur comes out unchanged. */
  lemma {:induction false} ReplaceAllAbsent(s: string, pat: string, repl: string)
    requires |pat| > 0 && !Contains(s, pat)
    ensures ReplaceAll(s, pat, repl) == s
    decreases |s|
  {
    if |s| >= |pat| {
      assert !OccursAt(s, pat, 0);
      forall k | 0 <= k <= |s[1..]| - |pat|
        ensures !OccursAt(s[1..], pat, k)
      {
        assert s[1..][k..k + |pat|] == s[k + 1..k + 1 + |pat|];
        assert !OccursAt(s, pat, k + 1);
      }
      ReplaceAllAbsent(s[1..], pat, repl);
    }
  }

  /**
   * When no occurrence of `pat` starts inside `p`, replacing in `p + h` keeps
   * `p` and replaces in `h` alone.
   */
  lemma {:induction false} ReplaceAllKeepsClearPrefix(p: string, h: string, pat: string, repl: string)
    requires |pat| > 0
    requires forall k :: 0 <= k < |p| ==> !OccursAt(p + h, pat, k)
    ensures ReplaceAll(p + h, pat, repl) == p + ReplaceAll(h, pat, repl)
    decreases |p|
  {
    if |p| > 0 {
      var s := p + h;
      assert !OccursAt(s, pat, 0);
      assert s[1..] == p[1..] + h;
      forall k | 0 <= k < |p[1..]|
        ensures !OccursAt(p[1..] + h, pat, k)
      {
        assert !OccursAt(s, pat, k + 1);
        if k + |pat| <= |p[1..] + h| {
          assert (p[1..] + h)[k..k + |pat|] == s[k + 1..k + 1 + |pat|];
        }
      }
      ReplaceAllKeepsClearPrefix(p[1..], h, pat, repl);
      if |s| >= |pat| {
        assert s[..|pat|] != pat;
        assert ReplaceAll(s, pat, repl) == [s[0]] + ReplaceAll(s[1..], pat, repl);
        assert ReplaceAll(s[1..], pat, repl) == p[1..] + ReplaceAll(h, pat, repl);
        assert s[0] == p[0];
        assert [p[0]] + (p[1..] + ReplaceAll(h, pat, repl)) == p + ReplaceAll(h, pat, repl);
      } else {
        assert ReplaceAll(h, pat, repl) == h;
        assert ReplaceAll(s, pat, repl) == s;
      }
    } else {
      assert p + h == h;
    }
  }
}

=== FILE: gold_prices.dfy ===
/**
 * Gold market average prices (`GoldMarketGetAverageInfo`): the request does
 * nothing; the response always uploads the prices and their times.
 */
module GoldPrices {
  import opened Wrappers
  import opened AlbionState

  /** The decoded response: prices and the matching times. */
  datatype GoldPricesResponse = GoldPricesResponse(goldPrices: seq<int>, timeStamps: seq<int>)

  /** The request handler leaves the state alone and uploads nothing. */
  function ProcessRequest(s: State): (r: Outcome)
    ensures r.Outcome? && r.state == s && r.upload.None?
  {
    Outcome(s, None)
  }

  /**
   * The response handler uploads exactly once, with no location or emptiness
   * check: the prices and the times exactly as received. The state is not
   * changed.
   */
  function ProcessResponse(s: State, op: GoldPricesResponse): (r: Outcome)
    ensures r.Outcome? && r.state == s && r.upload.Some?
    ensures r.upload.value.GoldPricesIngest?
    ensures r.upload.value.prices == op.goldPrices && r.upload.value.timeStamps == op.timeStamps
  {
    Outcome(s, Some(GoldPricesIngest(op.goldPrices, op.timeStamps)))
  }
}

=== FILE: lru.dfy ===
/**
 * A least-recently-used cache with a fixed capacity, as the fragment buffer
 * uses it: `Get` marks a key as most recently used, `Add` stores a value as
 * most recently used and, when a new key would exceed the capacity, evicts
 * the least recently used entry, and `Remove` deletes a key.
 *
 * The entries are kept oldest first; keys are the 32-bit sequence numbers of
 * fragment groups, held here as `int`.
 */
module Lru {
  import opened Wrappers

  datatype Cache<V> = Cache(entries: seq<(int, V)>)

  /** No key is stored twice. */
  predicate DistinctKeys<V>(entries: seq<(int, V)>) {
    forall i, j :: 0 <= i < j < |entries| ==> entries[i].0 != entries[j].0
  }

  /** The cache invariant: distinct keys and at most `capacity` entries. */
  predicate Valid<V>(c: Cache<V>, capacity: nat) {
    DistinctKeys(c.entries) && |c.entries| <= capacity
  }

  /** The value stored under `k`, if any. */
  function Lookup<V>(entries: seq<(int, V)>, k: int): (r: Option<V>)
    ensures r.Some? <==> exists i :: 0 <= i < |entries| && entries[i].0 == k
    ensures r.Some? ==> exists i :: 0 <= i < |entries| && entries[i] == (k, r.value)
  {
    if |entries| == 0 then None
    else if entries[0].0 == k then Some(entries[0].1)
    else
      var r := Lookup(entries[1..], k);
      assert forall i :: 0 < i < |entries| ==> entries[i] == entries[1..][i - 1];
      assert r.Some? ==> exists i :: 0 <= i < |entries[1..]| && entries[1..][i].0 == k;
      r
  }

  /** In a cache with distinct keys, the entry at position i is what Lookup finds. */
  lemma {:induction false} LookupAt<V>(entries: seq<(int, V)>, i: nat)
    requires DistinctKeys(entries) && i < |entries|
    ensures Lookup(entries, entries[i].0) == Some(entries[i].1)
    decreases i
  {
    if i > 0 {
      assert entries[1..][i - 1] == entries[i];
      LookupAt(entries[1..], i - 1);
    }
  }

  /** The entries without the one stored under `k`. */
  function Without<V>(entries: seq<(int, V)>, k: int): (r: seq<(int, V)>)
    ensures |r| <= |entries|
  {
    if |entries| == 0 then []
    else if entries[0].0 == k then Without(entries[1..], k)
    else [entries[0]] + Without(entries[1..], k)
  }

  /** Lookup in the entries without `k`: `k` is gone and every other key is unchanged. */
  lemma {:induction false} LookupWithout<V>(entries: seq<(int, V)>, k: int, j: int)
    ensures Lookup(Without(entries, k), j) == if j == k then None else Lookup(entries, j)
  {
    if |entries| > 0 {
      LookupWithout(entries[1..], k, j);
    }
  }

  lemma TailDistinct<V>(entries: seq<(int, V)>)
    requires DistinctKeys(entries) && |entries| > 0
    ensures DistinctKeys(entries[1..])
    ensures Lookup(entries[1..], entries[0].0).None?
  {
    var tail := entries[1..];
    forall i | 0 <= i < |tail|
      ensures tail[i] == entries[i + 1]
    {
    }
  }

  lemma ConsDistinct<V>(x: (int, V), r: seq<(int, V)>)
    requires DistinctKeys(r) && Lookup(r, x.0).None?
    ensures DistinctKeys([x] + r)
  {
    var e := [x] + r;
    forall i, j | 0 <= i < j < |e|
      ensures e[i].0 != e[j].0
    {
      assert e[j] == r[j - 1];
      if i > 0 {
        assert e[i] == r[i - 1];
      }
    }
  }

  lemma {:induction false} WithoutDistinct<V>(entries: seq<(int, V)>, k: int)
    requires DistinctKeys(entries)
    ensures DistinctKeys(Without(entries, k))
    ensures Lookup(entries, k).Some? ==> |Without(entries, k)| == |entries| - 1
    ensures Lookup(entries, k).None? ==> Without(entries, k) == entries
  {
    if |entries| > 0 {
      var tail := entries[1..];
      TailDistinct(entries);
      WithoutDistinct(tail, k);
      if entries[0].0 != k {
        LookupWithout(tail, k, entries[0].0);
        ConsDistinct(entries[0], Without(tail, k));
        assert Lookup(tail, k).None? ==> [entries[0]] + tail == entries;
      }
    }
  }

  /** Lookup after appending a key that is not yet stored. */
  lemma LookupSnoc<V>(entries: seq<(int, V)>, k: int, v: V, j: int)
    requires DistinctKeys(entries) && Lookup(entries, k).None?
    ensures DistinctKeys(entries + [(k, v)])
    ensures Lookup(entries + [(k, v)], j) == if j == k then Some(v) else Lookup(entries, j)
  {
    var e := entries + [(k, v)];
    assert forall i :: 0 <= i < |entries| ==> e[i] == entries[i];
    LookupAt(e, |entries|);
    if j != k {
      if Lookup(entries, j).Some? {
        var i :| 0 <= i < |entries| && entries[i] == (j, Lookup(entries, j).value);
        LookupAt(e, i);
      }
    }
  }

  /** Lookup after dropping the oldest entry. */
  lemma LookupTail<V>(entries: seq<(int, V)>, j: int)
    requires DistinctKeys(entries) && |entries| > 0
    ensures DistinctKeys(entries[1..])
    ensures Lookup(entries[1..], j) == if j == entries[0].0 then None else Lookup(entries, j)
  {
    assert forall i :: 0 <= i < |entries[1..]| ==> entries[1..][i] == entries[i + 1];
  }

  /**
   * `Get`: the value stored under `k`, and the cache with `k` marked most
   * recently used. What is stored is not changed.
   */
  function Get<V>(c: Cache<V>, k: int): (r: (Option<V>, Cache<V>))
    requires DistinctKeys(c.entries)
    ensures r.0 == Lookup(c.entries, k)
    ensures DistinctKeys(r.1.entries) && |r.1.entries| == |c.entries|
    ensures forall j :: Lookup(r.1.entries, j) == Lookup(c.entries, j)
    ensures r.0.Some? ==> r.1.entries[|r.1.entries| - 1] == (k, r.0.value)
    ensures r.0.None? ==> r.1 == c
  {
    match Lookup(c.entries, k)
    case None => (None, c)
    case Some(v) =>
      var rest := Without(c.entries, k);
      WithoutDistinct(c.entries, k);
      LookupWithout(c.entries, k, k);
      forall j ensures Lookup(rest + [(k, v)], j) == Lookup(c.entries, j) {
        LookupWithout(c.entries, k, j);
        LookupSnoc(rest, k, v, j);
      }
      LookupSnoc(rest, k, v, k);
      (Some(v), Cache(rest + [(k, v)]))
  }

  /**
   * `Add`: store `v` under `k` as most recently used. A new key that would
   * take the cache past its capacity evicts the least recently used entry.
   */
  function Add<V>(c: Cache<V>, k: int, v: V, capacity: nat): (r: Cache<V>)
    requires Valid(c, capacity) && capacity >= 1
    ensures Valid(r, capacity)
    ensures Lookup(r.entries, k) == Some(v)
    ensures r.entries[|r.entries| - 1] == (k, v)
    ensures Lookup(c.entries, k).Some? || |c.entries| < capacity ==>
      forall j :: j != k ==> Lookup(r.entries, j) == Lookup(c.entries, j)
    ensures Lookup(c.entries, k).None? && |c.entries| == capacity ==>
      forall j :: j != k ==> Lookup(r.entries, j) == if j == c.entries[0].0 then None else Lookup(c.entries, j)
  {
    var rest := Without(c.entries, k);
    WithoutDistinct(c.entries, k);
    LookupWithout(c.entries, k, k);
    var grown := rest + [(k, v)];
    LookupSnoc(rest, k, v, k);
    assert forall j :: Lookup(grown, j) == if j == k then Some(v) else Lookup(c.entries, j) by {
      forall j ensures Lookup(grown, j) == if j == k then Some(v) else Lookup(c.entries, j) {
        LookupWithout(c.entries, k, j);
        LookupSnoc(rest, k, v, j);
      }
    }
    if |grown| > capacity then
      assert grown[0] == c.entries[0];
      forall j ensures Lookup(grown[1..], j) == if j == grown[0].0 then None else Lookup(grown, j) {
        LookupTail(grown, j);
      }
      LookupTail(grown, k);
      Cache(grown[1..])
    else
      Cache(grown)
  }

  /** `Remove`: delete `k`; every other key keeps its value. */
  function Remove<V>(c: Cache<V>, k: int): (r: Cache<V>)
    requires DistinctKeys(c.entries)
    ensures DistinctKeys(r.entries) && |r.entries| <= |c.entries|
    ensures Lookup(r.entries, k).None?
    ensures forall j :: j != k ==> Lookup(r.entries, j) == Lookup(c.entries, j)
  {
    WithoutDistinct(c.entries, k);
    forall j ensures Lookup(Without(c.entries, k), j) == if j == k then None else Lookup(c.entries, j) {
      LookupWithout(c.entries, k, j);
    }
    Cache(Without(c.entries, k))
  }
}

=== FILE: map_data.dfy ===
/**
 * The map-data upload record and its flattening into rows of strings
 * (`MapDataUpload.StringArrays`): the upload holds parallel arrays indexed by
 * building, and each building becomes one row of six columns.
 */
module MapData {
  import GoText

  /** `lib.MapDataUpload`: a zone id and one array entry per building. */
  datatype MapDataUpload = MapDataUpload(
    zoneId: int,
    buildingType: seq<int>,
    availableFood: seq<int>,
    reward: seq<int>,
    availableSilver: seq<int>,
    owners: seq<string>,
    publicFee: seq<int>,
    associateFee: seq<int>,
    coordinates: seq<seq<int>>,
    durability: seq<int>,
    permission: seq<int>)

  /** The arrays the rows read are at least as long as `buildingType`; Go indexes them unchecked. */
  predicate RowsReadable(m: MapDataUpload) {
    |m.availableFood| >= |m.buildingType| && |m.reward| >= |m.buildingType|
    && |m.availableSilver| >= |m.buildingType| && |m.owners| >= |m.buildingType|
  }

  /** The row for building `i`. */
  function Row(m: MapDataUpload, i: nat): seq<string>
    requires RowsReadable(m) && i < |m.buildingType|
  {
    [GoText.FormatInt(m.zoneId),
     GoText.FormatInt(m.buildingType[i]),
     GoText.FormatInt(m.availableFood[i]),
     GoText.FormatInt(m.reward[i]),
     GoText.FormatInt(m.availableSilver[i]),
     m.owners[i]]
  }

  /**
   * `StringArrays`: one row per building type, in order; each row holds the
   * decimal zone id, the decimal building type, food, reward and silver of
   * that building, and its owner verbatim.
   */
  method StringArrays(m: MapDataUpload) returns (rows: seq<seq<string>>)
    requires RowsReadable(m)
    ensures |rows| == |m.buildingType|
    ensures forall i :: 0 <= i < |rows| ==> |rows[i]| == 6 && rows[i][5] == m.owners[i]
    ensures forall i :: 0 <= i < |rows| ==> rows[i][0] == GoText.FormatInt(m.zoneId)
    ensures forall i :: 0 <= i < |rows| ==>
      rows[i][1] == GoText.FormatInt(m.buildingType[i]) && rows[i][2] == GoText.FormatInt(m.availableFood[i])
      && rows[i][3] == GoText.FormatInt(m.reward[i]) && rows[i][4] == GoText.FormatInt(m.availableSilver[i])
  {
    rows := [];
    var i := 0;
    while i < |m.buildingType|
      invariant i <= |m.buildingType|
      invariant |rows| == i
      invariant forall k :: 0 <= k < i ==> rows[k] == Row(m, k)
    {
      rows := rows + [Row(m, i)];
      i := i + 1;
    }
  }

  /** A 64-bit number written by `%d` reads back with `strconv.Atoi`. */
  predicate IsInt64(n: int) {
    GoText.MinInt64 <= n <= GoText.MaxInt64
  }

  /**
   * The rows lose nothing: parsing the numeric columns of building `i`'s row
   * with `strconv.Atoi` gives back the zone id and the building's four numbers.
   */
  lemma RowParsesBack(m: MapDataUpload, i: nat)
    requires RowsReadable(m) && i < |m.buildingType|
    requires IsInt64(m.zoneId) && IsInt64(m.buildingType[i]) && IsInt64(m.availableFood[i])
    requires IsInt64(m.reward[i]) && IsInt64(m.availableSilver[i])
    ensures GoText.Atoi(Row(m, i)[0]) == GoText.Parsed(m.zoneId, true)
    ensures GoText.Atoi(Row(m, i)[1]) == GoText.Parsed(m.buildingType[i], true)
    ensures GoText.Atoi(Row(m, i)[2]) == GoText.Parsed(m.availableFood[i], true)
    ensures GoText.Atoi(Row(m, i)[3]) == GoText.Parsed(m.reward[i], true)
    ensures GoText.Atoi(Row(m, i)[4]) == GoText.Parsed(m.availableSilver[i], true)
  {
    var row := Row(m, i);
    assert row[0] == GoText.FormatInt(m.zoneId) && row[1] == GoText.FormatInt(m.buildingType[i]);
    assert row[2] == GoText.FormatInt(m.availableFood[i]) && row[3] == GoText.FormatInt(m.reward[i]);
    assert row[4] == GoText.FormatInt(m.availableSilver[i]);
    GoText.AtoiFormatInt(m.zoneId);
    GoText.AtoiFormatInt(m.buildingType[i]);
    GoText.AtoiFormatInt(m.availableFood[i]);
    GoText.AtoiFormatInt(m.reward[i]);
    GoText.AtoiFormatInt(m.availableSilver[i]);
  }
}

=== FILE: market_history.dfy ===
/**
 * Market-history requests and responses (`AuctionGetItemAverageStats`).
 *
 * The request carries the item, quality and timescale the client asked
 * about; the response carries only the averages. The request therefore
 * parks what it knows in slot `MessageID % CacheSize` of the state's lookup
 * ring, and the response with the same message id picks it up, clears it,
 * corrects the item amounts, sorts the entries newest first and uploads them.
 *
 * The response waits up to thirty seconds for the request to fill its slot;
 * here the state given to the response is the state at its last look.
 */
module MarketHistory {
  import opened Wrappers
  import opened AlbionState

  // ---------------------------------------------------------------------------
  // Request: park the item details in the ring
  // ---------------------------------------------------------------------------

  /** The decoded request; `messageId` is a `uint64` in Go. */
  datatype AverageStatsRequest = AverageStatsRequest(
    itemId: int, quality: int, timescale: int, enchantment: int, messageId: nat)

  /** The slot a request writes: the unsigned message id modulo the ring size. */
  function RequestSlot(messageId: nat): (i: nat)
    ensures i < CacheSize
    ensures (messageId - i) % CacheSize == 0
  {
    messageId % CacheSize
  }

  /**
   * Item ids from 129 to 256 arrive as negative bytes; an id in -128..-1 is
   * shifted up by 256 and any other id is kept.
   */
  function FixItemId(id: int): (r: int)
    ensures -128 <= id <= -1 ==> r == id + 256 && 128 <= r <= 255
    ensures !(-128 <= id <= -1) ==> r == id
  {
    if id < 0 && id > -129 then id + 256 else id
  }

  /**
   * The request handler writes the corrected item id, the timescale and the
   * quality into the request's slot; every other slot and every other part
   * of the state is left alone.
   */
  function ProcessRequest(s: State, op: AverageStatsRequest): (r: State)
    requires WellFormed(s)
    ensures WellFormed(r)
    ensures r == s.(historyLookup := r.historyLookup)
    ensures r.historyLookup[RequestSlot(op.messageId)]
      == MarketHistoryInfo(FixItemId(op.itemId), op.timescale, op.quality)
    ensures forall j :: 0 <= j < CacheSize && j != RequestSlot(op.messageId) ==>
      r.historyLookup[j] == s.historyLookup[j]
  {
    var index := RequestSlot(op.messageId);
    var info := MarketHistoryInfo(FixItemId(op.itemId), op.timescale, op.quality);
    s.(historyLookup := s.historyLookup[index := info])
  }

  // ---------------------------------------------------------------------------
  // Response
  // ---------------------------------------------------------------------------

  /** The decoded response; its `messageId` is a signed Go `int`. */
  datatype AverageStatsResponse = AverageStatsResponse(
    itemAmounts: seq<int>, silverAmounts: seq<int>, timestamps: seq<int>, messageId: int)

  /**
   * The slot index a response computes: Go's `%` on a signed int, whose
   * remainder takes the sign of the dividend. It agrees with the
   * mathematical residue up to a multiple of the ring size, and it is
   * negative (an index Go rejects) exactly for a negative id that is not a
   * multiple of the ring size.
   */
  function ResponseSlot(messageId: int): (i: int)
    ensures -(CacheSize as int) < i < CacheSize
    ensures (messageId - i) % CacheSize == 0
    ensures i < 0 <==> messageId < 0 && messageId % CacheSize != 0
    ensures messageId >= 0 ==> i >= 0
  {
    if messageId >= 0 then messageId % CacheSize else -((-messageId) % CacheSize)
  }

  /** A response reads the slot its request wrote when both carry the same id. */
  lemma ResponseFindsRequestSlot(messageId: nat)
    ensures ResponseSlot(messageId) == RequestSlot(messageId)
  {
  }

  /**
   * The correction of one item amount: below -124 the entry is dropped,
   * -124..-1 is read as an unsigned byte (plus 256), and anything else is kept.
   */
  function FixAmount(amount: int): (r: Option<int>)
    ensures r.Some? <==> amount >= -124
    ensures r.Some? ==> r.value >= 0
    ensures r.Some? && amount < 0 ==> r.value == amount + 256 && 132 <= r.value <= 255
    ensures amount >= 0 ==> r == Some(amount)
  {
    if amount < 0 then
      if amount < -124 then None else Some(256 + amount)
    else Some(amount)
  }

  /** The histories built from the first `n` entries of the response arrays, in array order. */
  function Collect(op: AverageStatsResponse, n: nat): (hs: seq<MarketHistory>)
    requires n <= |op.itemAmounts| <= |op.silverAmounts| && n <= |op.timestamps|
    ensures |hs| <= n
    ensures forall k :: 0 <= k < |hs| ==> hs[k].itemAmount >= 0
  {
    if n == 0 then []
    else
      var prefix := Collect(op, n - 1);
      match FixAmount(op.itemAmounts[n - 1])
      case None => prefix
      case Some(amount) => prefix + [MarketHistory(amount, op.silverAmounts[n - 1], op.timestamps[n - 1])]
  }

  /**
   * What `Collect` keeps: exactly the entries whose amount survives the
   * correction, with the corrected amount and the entry's silver and time.
   */
  lemma {:induction false} CollectContents(op: AverageStatsResponse, n: nat, h: MarketHistory)
    requires n <= |op.itemAmounts| <= |op.silverAmounts| && n <= |op.timestamps|
    ensures h in Collect(op, n) <==>
      exists i :: 0 <= i < n && FixAmount(op.itemAmounts[i]) == Some(h.itemAmount)
        && h.silverAmount == op.silverAmounts[i] && h.timestamp == op.timestamps[i]
  {
    if n > 0 {
      CollectContents(op, n - 1, h);
    }
  }

  /** No history is produced exactly when every amount is below -124. */
  lemma {:induction false} CollectEmpty(op: AverageStatsResponse, n: nat)
    requires n <= |op.itemAmounts| <= |op.silverAmounts| && n <= |op.timestamps|
    ensures |Collect(op, n)| == 0 <==> forall i :: 0 <= i < n ==> op.itemAmounts[i] < -124
  {
    if n > 0 {
      CollectEmpty(op, n - 1);
    }
  }

  // ---------------------------------------------------------------------------
  // Stable sort, newest first (`sort.SliceStable` with a "later than" order)
  // ---------------------------------------------------------------------------

  /** Timestamps never increase along the sequence. */
  predicate NewestFirst(hs: seq<MarketHistory>) {
    forall i, j :: 0 <= i < j < |hs| ==> hs[i].timestamp >= hs[j].timestamp
  }

  /** The entries with timestamp `t`, in their order in `hs`. */
  function WithTimestamp(hs: seq<MarketHistory>, t: int): seq<MarketHistory> {
    if |hs| == 0 then []
    else (if hs[0].timestamp == t then [hs[0]] else []) + WithTimestamp(hs[1..], t)
  }

  /** `h` goes in front of the first entry that is not strictly newer than it. */
  function Insert(h: MarketHistory, hs: seq<MarketHistory>): (r: seq<MarketHistory>)
    ensures |r| == |hs| + 1
    ensures r[0] == h || (|hs| > 0 && r[0] == hs[0])
  {
    if |hs| == 0 || hs[0].timestamp <= h.timestamp then [h] + hs
    else [hs[0]] + Insert(h, hs[1..])
  }

  /** Inserting adds `h` and loses nothing. */
  lemma {:induction false} InsertPermutes(h: MarketHistory, hs: seq<MarketHistory>)
    ensures multiset(Insert(h, hs)) == multiset(hs) + multiset{h}
  {
    if |hs| > 0 && hs[0].timestamp > h.timestamp {
      InsertPermutes(h, hs[1..]);
      assert hs == [hs[0]] + hs[1..];
    }
  }

  /** Inserting into a newest-first sequence keeps it newest first. */
  lemma {:induction false} InsertSorted(h: MarketHistory, hs: seq<MarketHistory>)
    requires NewestFirst(hs)
    ensures NewestFirst(Insert(h, hs))
  {
    if |hs| > 0 && hs[0].timestamp > h.timestamp {
      var rest := Insert(h, hs[1..]);
      InsertSorted(h, hs[1..]);
      assert hs[0].timestamp >= rest[0].timestamp by {
        if |hs| > 1 {
          assert hs[1..][0] == hs[1];
        }
      }
      var r := [hs[0]] + rest;
      forall i, j | 0 <= i < j < |r|
        ensures r[i].timestamp >= r[j].timestamp
      {
        assert r[j] == rest[j - 1];
        if i > 0 {
          assert r[i] == rest[i - 1];
        } else if j > 1 {
          assert rest[0].timestamp >= rest[j - 1].timestamp;
        }
      }
    }
  }

  /** Inserting in front of everything it came before keeps each timestamp's entries in order. */
  lemma {:induction false} InsertKeepsOrder(h: MarketHistory, hs: seq<MarketHistory>, t: int)
    ensures WithTimestamp(Insert(h, hs), t) == (if h.timestamp == t then [h] else []) + WithTimestamp(hs, t)
  {
    if |hs| > 0 && hs[0].timestamp > h.timestamp {
      InsertKeepsOrder(h, hs[1..], t);
      assert ([hs[0]] + Insert(h, hs[1..]))[1..] == Insert(h, hs[1..]);
    }
  }

  /** The histories ordered newest first; entries with equal timestamps keep their order. */
  function SortNewestFirst(hs: seq<MarketHistory>): (r: seq<MarketHistory>)
    ensures |r| == |hs|
  {
    if |hs| == 0 then [] else Insert(hs[0], SortNewestFirst(hs[1..]))
  }

  /** The sort output is newest first and a permutation of its input. */
  lemma {:induction false} SortSortsAndPermutes(hs: seq<MarketHistory>)
    ensures NewestFirst(SortNewestFirst(hs))
    ensures multiset(SortNewestFirst(hs)) == multiset(hs)
  {
    if |hs| > 0 {
      SortSortsAndPermutes(hs[1..]);
      InsertSorted(hs[0], SortNewestFirst(hs[1..]));
      InsertPermutes(hs[0], SortNewestFirst(hs[1..]));
      assert hs == [hs[0]] + hs[1..];
    }
  }

  /** The sort is stable: for every timestamp, its entries come out in their input order. */
  lemma {:induction false} SortIsStable(hs: seq<MarketHistory>, t: int)
    ensures WithTimestamp(SortNewestFirst(hs), t) == WithTimestamp(hs, t)
  {
    if |hs| > 0 {
      SortIsStable(hs[1..], t);
      InsertKeepsOrder(hs[0], SortNewestFirst(hs[1..]), t);
    }
  }

  /**
   * The response handler.
   *
   * A negative slot index makes Go panic. A slot whose item id is below 1
   * (no request filled it) ends the handler with nothing changed. Otherwise
   * the slot's item id is cleared to 0 before the location check; an invalid
   * location ends the handler there. Go indexes the silver and time arrays
   * with every item-amount index, and panics if they are shorter. The
   * corrected histories are uploaded newest first, with the item, quality
   * and timescale from the slot and the location from the state; with no
   * histories nothing is uploaded.
   */
  function ProcessResponse(s: State, op: AverageStatsResponse): (r: Outcome)
    requires WellFormed(s)
    ensures ResponseSlot(op.messageId) < 0 ==> r.Halted?
    ensures ResponseSlot(op.messageId) >= 0 && s.historyLookup[ResponseSlot(op.messageId)].albionId < 1 ==>
      r == Outcome(s, None)
    ensures r.Outcome? ==> WellFormed(r.state) && r.state == s.(historyLookup := r.state.historyLookup)
    ensures r.Outcome? && ResponseSlot(op.messageId) >= 0 ==>
      var i := ResponseSlot(op.messageId);
      var info := s.historyLookup[i];
      r.state.historyLookup == if info.albionId < 1 then s.historyLookup
                               else s.historyLookup[i := info.(albionId := 0)]
    ensures ResponseSlot(op.messageId) >= 0 ==>
      (r.Halted? <==>
        && s.historyLookup[ResponseSlot(op.messageId)].albionId >= 1
        && IsValidLocation(s) && 0 < |op.itemAmounts|
        && (|op.silverAmounts| < |op.itemAmounts| || |op.timestamps| < |op.itemAmounts|))
    ensures r.Outcome? && r.upload.Some? ==>
      var info := s.historyLookup[ResponseSlot(op.messageId)];
      var u := r.upload.value;
      IsValidLocation(s) && info.albionId >= 1
      && u.MarketHistoriesIngest?
      && u == MarketHistoriesIngest(info.albionId, s.locationId, info.quality, info.timescale, u.histories)
      && |u.histories| > 0 && NewestFirst(u.histories)
      && (forall k :: 0 <= k < |u.histories| ==> u.histories[k].itemAmount >= 0)
    ensures (r.Outcome? && r.upload.None? && IsValidLocation(s) && ResponseSlot(op.messageId) >= 0
      && s.historyLookup[ResponseSlot(op.messageId)].albionId >= 1) ==>
      forall k :: 0 <= k < |op.itemAmounts| ==> op.itemAmounts[k] < -124
  {
    var index := ResponseSlot(op.messageId);
    if index < 0 then Halted
    else
      var info := s.historyLookup[index];
      if info.albionId < 1 then Outcome(s, None)
      else
        var cleared := s.(historyLookup := s.historyLookup[index := info.(albionId := 0)]);
        if !IsValidLocation(cleared) then Outcome(cleared, None)
        else if |op.itemAmounts| > 0
          && (|op.silverAmounts| < |op.itemAmounts| || |op.timestamps| < |op.itemAmounts|) then Halted
        else
          var histories := Collect(op, |op.itemAmounts|);
          CollectEmpty(op, |op.itemAmounts|);
          if |histories| < 1 then Outcome(cleared, None)
          else
            var sorted := SortNewestFirst(histories);
            SortSortsAndPermutes(histories);
            assert forall k :: 0 <= k < |sorted| ==> sorted[k] in multiset(histories);
            var upload := MarketHistoriesIngest(info.albionId, s.locationId, info.quality, info.timescale, sorted);
            Outcome(cleared, Some(upload))
  }

  /**
   * The uploaded histories are the collected entries, sorted newest first
   * and stably: a permutation of what `Collect` keeps, with every
   * timestamp's entries in array order.
   */
  lemma UploadedHistories(s: State, op: AverageStatsResponse, t: int)
    requires WellFormed(s)
    requires ProcessResponse(s, op).Outcome? && ProcessResponse(s, op).upload.Some?
    ensures |op.itemAmounts| <= |op.silverAmounts| && |op.itemAmounts| <= |op.timestamps|
    ensures var hs := ProcessResponse(s, op).upload.value.histories;
      var kept := Collect(op, |op.itemAmounts|);
      multiset(hs) == multiset(kept) && WithTimestamp(hs, t) == WithTimestamp(kept, t)
  {
    SortSortsAndPermutes(Collect(op, |op.itemAmounts|));
    SortIsStable(Collect(op, |op.itemAmounts|), t);
  }

  /**
   * A request followed by its response, with a valid location and at least
   * one usable amount, uploads the request's corrected item id, quality and
   * timescale, and leaves the slot cleared.
   */
  lemma RequestThenResponse(s: State, req: AverageStatsRequest, op: AverageStatsResponse)
    requires WellFormed(s) && IsValidLocation(s)
    requires op.messageId == req.messageId && FixItemId(req.itemId) >= 1
    requires |op.itemAmounts| <= |op.silverAmounts| && |op.itemAmounts| <= |op.timestamps|
    requires exists k :: 0 <= k < |op.itemAmounts| && op.itemAmounts[k] >= -124
    ensures var r := ProcessResponse(ProcessRequest(s, req), op);
      r.Outcome? && r.upload.Some?
      && r.upload.value.albionId == FixItemId(req.itemId)
      && r.upload.value.qualityLevel == req.quality && r.upload.value.timescale == req.timescale
      && r.state.historyLookup[RequestSlot(req.messageId)].albionId == 0
  {
    ResponseFindsRequestSlot(req.messageId);
    CollectEmpty(op, |op.itemAmounts|);
  }
}

=== FILE: market_orders.dfy ===
/**
 * Live market orders: the sell-offer handlers (`AuctionGetOffers`) and the
 * buy-request response (`AuctionGetRequests`).
 *
 * Each order arrives as a JSON text. The model does not parse JSON; a raw
 * order records what the two decodes the handler performs would see: whether
 * the text decodes into a Go map at all (a JSON object, or `null`), the value
 * of its `LocationId` member,
 * the `LocationID` a decode into `lib.MarketOrder` would leave, and the
 * remaining fields, which are carried through untouched.
 */
module MarketOrders {
  import opened Wrappers
  import GoText
  import opened AlbionState

  /** The `LocationId` member of an order object. */
  datatype LocationField =
    | NoLocation
    | LocationText(text: string)
    | LocationOther

  /**
   * One order text. `decodedLocationId` is the `LocationID` that decoding the
   * text as received into `lib.MarketOrder` leaves behind (0 when the member
   * is missing, null or not a number).
   */
  datatype RawOrder = RawOrder(isObject: bool, location: LocationField, decodedLocationId: int, details: string)

  /** The location as a string, or "" when it is not a JSON string (Go's `.(string)` with the ok flag dropped). */
  function LocationString(f: LocationField): string {
    match f
    case LocationText(text) => text
    case _ => ""
  }

  const Blackbank: string := "BLACKBANK-"

  /** A string holding `c` splits into at least two pieces. */
  lemma SplitAtLeastTwo(s: string, c: char)
    requires c in s
    ensures |GoText.Split(s, c)| >= 2
  {
    var i := GoText.IndexOf(s, c);
    GoText.CountPrefixFree(s, c, i);
  }

  /**
   * The location of an order whose location text holds an `@` (a rest or a
   * smugglers' den): the text between the first and the second `@`, with
   * every `BLACKBANK-` removed, read as an integer; text that is not an
   * integer reads as 0.
   */
  function NormalizeLocation(text: string): (id: int)
    requires '@' in text
    ensures GoText.MinInt64 <= id <= GoText.MaxInt64
  {
    GoText.Atoi(NumberText(text)).value
  }

  /** The text handed to `strconv.Atoi`: the second `@` piece with every `BLACKBANK-` removed. */
  function NumberText(text: string): string
    requires '@' in text
  {
    SplitAtLeastTwo(text, '@');
    var field := GoText.Split(text, '@')[1];
    if GoText.Contains(field, Blackbank) then GoText.ReplaceAll(field, Blackbank, "") else field
  }

  /**
   * The second piece of splitting `p + "@" + f + q` at `@` is `f`, when
   * neither `p` nor `f` holds an `@` and `q` is empty or starts a new piece.
   */
  lemma SecondPiece(p: string, f: string, q: string)
    requires '@' !in p && '@' !in f && (|q| == 0 || q[0] == '@')
    ensures '@' in p + "@" + f + q
    ensures GoText.Split(p + "@" + f + q, '@')[1] == f
  {
    var after := f + q;
    var s := p + ['@'] + after;
    assert p + "@" + f + q == s by {
      Associative(p + "@", f, q);
    }
    assert s[|p|] == '@';
    GoText.SplitAt(p, '@', after);
    if |q| == 0 {
      assert after == f;
    } else {
      assert after == f + ['@'] + q[1..] by {
        assert q == ['@'] + q[1..];
        Associative(f, ['@'], q[1..]);
      }
      GoText.SplitAt(f, '@', q[1..]);
    }
  }

  /** Concatenation regrouped; a separate step keeps the proof above cheap. */
  lemma Associative(a: string, b: string, c: string)
    ensures a + b + c == a + (b + c)
  {
  }

  /** Text made of digits and signs holds no `@` and no `BLACKBANK-`. */
  lemma NumberTextIsPlain(d: string)
    requires forall k :: 0 <= k < |d| ==> GoText.IsDigit(d[k]) || d[k] == '-'
    ensures '@' !in d
    ensures !GoText.Contains(d, Blackbank)
  {
    assert Blackbank[0] !in d;
    GoText.AbsentCharNoMatch(d, Blackbank, 0);
  }

  lemma FormatIntIsPlain(n: int)
    ensures forall k :: 0 <= k < |GoText.FormatInt(n)| ==> GoText.IsDigit(GoText.FormatInt(n)[k]) || GoText.FormatInt(n)[k] == '-'
  {
    if n < 0 {
      assert GoText.FormatInt(n) == "-" + GoText.FormatNat(-n);
    }
  }

  /**
   * A rest location `p@n` (optionally followed by `@…`) reads as the number `n`.
   */
  lemma NormalizeRest(p: string, n: int, q: string)
    requires '@' !in p && (|q| == 0 || q[0] == '@')
    requires GoText.MinInt64 <= n <= GoText.MaxInt64
    ensures '@' in p + "@" + GoText.FormatInt(n) + q
    ensures NormalizeLocation(p + "@" + GoText.FormatInt(n) + q) == n
  {
    var d := GoText.FormatInt(n);
    FormatIntIsPlain(n);
    NumberTextIsPlain(d);
    SecondPiece(p, d, q);
    GoText.AtoiFormatInt(n);
  }

  /**
   * A smugglers' den location `p@BLACKBANK-n` (optionally followed by `@…`)
   * reads as the number `n`.
   */
  lemma NormalizeDen(p: string, n: int, q: string)
    requires '@' !in p && (|q| == 0 || q[0] == '@')
    requires GoText.MinInt64 <= n <= GoText.MaxInt64
    ensures '@' in p + "@" + Blackbank + GoText.FormatInt(n) + q
    ensures NormalizeLocation(p + "@" + Blackbank + GoText.FormatInt(n) + q) == n
  {
    var d := GoText.FormatInt(n);
    var f := Blackbank + d;
    FormatIntIsPlain(n);
    NumberTextIsPlain(d);
    assert '@' !in f by {
      assert forall k :: 0 <= k < |f| ==> f[k] == if k < |Blackbank| then Blackbank[k] else d[k - |Blackbank|];
    }
    assert p + "@" + Blackbank + d + q == p + "@" + f + q;
    SecondPiece(p, f, q);
    assert GoText.OccursAt(f, Blackbank, 0);
    assert f[..|Blackbank|] == Blackbank;
    assert f[|Blackbank|..] == d;
    GoText.ReplaceAllAbsent(d, Blackbank, "");
    assert GoText.ReplaceAll(f, Blackbank, "") == d;
    assert NumberText(p + "@" + f + q) == d;
    GoText.AtoiFormatInt(n);
  }

  /** The location an offer carries after the `@` handling, before the fallback to the state's. */
  function OfferLocation(raw: RawOrder): int {
    var text := LocationString(raw.location);
    if '@' in text then NormalizeLocation(text) else raw.decodedLocationId
  }

  /**
   * One converted offer: a location of 0 (missing or unreadable) is replaced
   * by the player's location; any other location is kept, and so are the
   * other fields.
   */
  function ConvertOffer(raw: RawOrder, playerLocation: int): (o: MarketOrder)
    ensures o.details == raw.details
    ensures OfferLocation(raw) != 0 ==> o.locationId == OfferLocation(raw)
    ensures OfferLocation(raw) == 0 ==> o.locationId == playerLocation
    ensures o.locationId == 0 ==> playerLocation == 0
  {
    var id := OfferLocation(raw);
    MarketOrder(if id == 0 then playerLocation else id, raw.details)
  }

  /**
   * An offer whose rest or den location is not a number once `BLACKBANK-`
   * is removed gets the player's location, unless the digits before the
   * first bad character already overflow: then `strconv.Atoi`'s range error
   * leaves the int64 bound, which is not 0 and so is kept.
   */
  lemma UnreadableDenFallsBack(raw: RawOrder, playerLocation: int)
    requires raw.location.LocationText? && '@' in raw.location.text
    requires var body := GoText.Unsigned(NumberText(raw.location.text));
      |body| == 0 || !GoText.AllDigits(body)
    ensures var body := GoText.Unsigned(NumberText(raw.location.text));
      (|body| == 0 || !GoText.LeadOverflows(body)) ==> ConvertOffer(raw, playerLocation).locationId == playerLocation
    ensures var number := NumberText(raw.location.text);
      var body := GoText.Unsigned(number);
      |body| > 0 && GoText.LeadOverflows(body) ==>
        ConvertOffer(raw, playerLocation).locationId == (if number[0] == '-' then GoText.MinInt64 else GoText.MaxInt64)
  {
  }

  /** The market-offers request only records that market data is awaited. */
  function ProcessOffersRequest(s: State): (r: State)
    ensures r.waitingForMarketData
    ensures r == s.(waitingForMarketData := true)
  {
    s.(waitingForMarketData := true)
  }

  /**
   * The market-offers response. It stops waiting for market data first of
   * all. With an invalid location nothing is uploaded. An order text that does
   * not decode into a map ends the process. Otherwise every order is converted,
   * one output per input in input order, and uploaded unless there are none.
   */
  function ProcessOffersResponse(s: State, orders: seq<RawOrder>): (r: Outcome)
    ensures r.Outcome? ==> r.state == s.(waitingForMarketData := false)
    ensures r.Halted? <==> IsValidLocation(s) && exists i :: 0 <= i < |orders| && !orders[i].isObject
    ensures r.Outcome? && r.upload.Some? <==> IsValidLocation(s) && |orders| > 0 && r.Outcome?
    ensures r.Outcome? && r.upload.Some? ==>
      r.upload.value.MarketOrdersIngest? && |r.upload.value.orders| == |orders|
      && forall i :: 0 <= i < |orders| ==> r.upload.value.orders[i] == ConvertOffer(orders[i], s.locationId)
  {
    var waiting := s.(waitingForMarketData := false);
    if !IsValidLocation(waiting) then Outcome(waiting, None)
    else if exists i :: 0 <= i < |orders| && !orders[i].isObject then Halted
    else
      var converted := seq(|orders|, i requires 0 <= i < |orders| => ConvertOffer(orders[i], s.locationId));
      if |converted| < 1 then Outcome(waiting, None)
      else Outcome(waiting, Some(MarketOrdersIngest(converted)))
  }

  /**
   * The buy-request response. The state is never changed. With an invalid
   * location nothing is uploaded; otherwise every order, one output per input
   * in input order, gets the player's location whatever it carried, and the
   * orders are uploaded unless there are none.
   */
  function ProcessRequestsResponse(s: State, orders: seq<RawOrder>): (r: Outcome)
    ensures r.Outcome? && r.state == s
    ensures r.upload.Some? <==> IsValidLocation(s) && |orders| > 0
    ensures r.upload.Some? ==>
      r.upload.value.MarketOrdersIngest? && |r.upload.value.orders| == |orders|
      && forall i :: 0 <= i < |orders| ==>
        r.upload.value.orders[i].locationId == s.locationId && r.upload.value.orders[i].details == orders[i].details
  {
    if !IsValidLocation(s) then Outcome(s, None)
    else
      var converted := seq(|orders|, i requires 0 <= i < |orders| => MarketOrder(s.locationId, orders[i].details));
      if |converted| < 1 then Outcome(s, None)
      else Outcome(s, Some(MarketOrdersIngest(converted)))
  }
}

=== FILE: pow.dfy ===
/**
 * The pure parts of the proof-of-work HTTP uploader: hex encoding of the
 * random nonce, rendering bytes as binary digits, the challenge text, the
 * acceptance test of `solvePow`, the rewrite of the ingest URL scheme and
 * the CPU cap.
 *
 * Go strings and byte slices are both byte sequences here (`seq<bv8>`).
 * SHA-256 is a parameter, and the random bytes of each attempt are supplied
 * up front: where Go keeps drawing forever, the model gives up when they run
 * out.
 */
module ProofOfWork {
  import opened Wrappers
  import GoText

  /** A SHA-256 digest: 32 bytes. */
  type Digest = d: seq<bv8> | |d| == 32 witness seq(32, i => 0 as bv8)

  // ---------------------------------------------------------------------------
  // Lower-case hex (`encoding/hex`)
  // ---------------------------------------------------------------------------

  predicate IsLowerHex(c: bv8) {
    0x30 <= c <= 0x39 || 0x61 <= c <= 0x66
  }

  /** The hex digit for a nibble: '0'..'9' then 'a'..'f'. */
  function HexDigit(v: bv8): (c: bv8)
    requires v < 16
    ensures IsLowerHex(c)
  {
    if v < 10 then 0x30 + v else 0x61 + (v - 10)
  }

  /** The nibble a hex digit stands for. */
  function HexValue(c: bv8): (v: bv8)
    requires IsLowerHex(c)
    ensures v < 16
  {
    if c <= 0x39 then c - 0x30 else c - 0x61 + 10
  }

  function HighNibble(b: bv8): (v: bv8)
    ensures v < 16
  {
    b >> 4
  }

  function LowNibble(b: bv8): (v: bv8)
    ensures v < 16
  {
    b & 0xf
  }

  /** The byte with the given high and low nibbles. */
  function JoinNibbles(high: bv8, low: bv8): bv8 {
    (high << 4) | low
  }

  /**
   * `hex.Encode`, and so `randomHex` over its random bytes: two lower-case hex
   * digits per byte, high nibble first.
   */
  function HexEncode(bs: seq<bv8>): (r: seq<bv8>)
    ensures |r| == 2 * |bs|
    ensures forall k :: 0 <= k < |r| ==> IsLowerHex(r[k])
  {
    seq(2 * |bs|, k requires 0 <= k < 2 * |bs| =>
      if k % 2 == 0 then HexDigit(HighNibble(bs[k / 2])) else HexDigit(LowNibble(bs[k / 2])))
  }

  /** `hex.Decode` of well-formed lower-case hex. */
  function HexDecode(hs: seq<bv8>): seq<bv8>
    requires |hs| % 2 == 0 && forall k :: 0 <= k < |hs| ==> IsLowerHex(hs[k])
  {
    seq(|hs| / 2, i requires 0 <= i < |hs| / 2 => JoinNibbles(HexValue(hs[2 * i]), HexValue(hs[2 * i + 1])))
  }

  lemma NibblesRoundTrip(b: bv8)
    ensures JoinNibbles(HexValue(HexDigit(HighNibble(b))), HexValue(HexDigit(LowNibble(b)))) == b
  {
  }

  /** Decoding the hex of some bytes gives the bytes back. */
  lemma HexRoundTrip(bs: seq<bv8>)
    ensures HexDecode(HexEncode(bs)) == bs
  {
    var hs := HexEncode(bs);
    forall i | 0 <= i < |bs|
      ensures HexDecode(hs)[i] == bs[i]
    {
      assert hs[2 * i] == HexDigit(HighNibble(bs[i]));
      assert hs[2 * i + 1] == HexDigit(LowNibble(bs[i]));
      NibblesRoundTrip(bs[i]);
    }
  }

  // ---------------------------------------------------------------------------
  // Binary digits (`toBinaryBytes`, and the bit loop of `solvePow`)
  // ---------------------------------------------------------------------------

  const Zero: bv8 := 0x30
  const One: bv8 := 0x31

  /** Bit `j` of `b` (0 is the least significant) as a binary digit. */
  function BitDigit(b: bv8, j: nat): (c: bv8)
    requires j < 8
    ensures c == Zero || c == One
  {
    if (b >> j) & 1 == 1 then One else Zero
  }

  /** `fmt`'s `%08b`: the eight bits of `b` as '0'/'1', most significant first. */
  function Bits(b: bv8): (r: seq<bv8>)
    ensures |r| == 8
    ensures forall k :: 0 <= k < 8 ==> r[k] == Zero || r[k] == One
  {
    seq(8, k requires 0 <= k < 8 => BitDigit(b, 7 - k))
  }

  function Bit(c: bv8): bv8 {
    if c == One then 1 else 0
  }

  /** The byte eight binary digits denote, most significant first. */
  function FromBits(r: seq<bv8>): bv8
    requires |r| == 8
  {
    (Bit(r[0]) << 7) | (Bit(r[1]) << 6) | (Bit(r[2]) << 5) | (Bit(r[3]) << 4)
    | (Bit(r[4]) << 3) | (Bit(r[5]) << 2) | (Bit(r[6]) << 1) | Bit(r[7])
  }

  lemma BitsRecombine(b: bv8)
    ensures b == (((b >> 7) & 1) << 7) | (((b >> 6) & 1) << 6) | (((b >> 5) & 1) << 5) | (((b >> 4) & 1) << 4)
      | (((b >> 3) & 1) << 3) | (((b >> 2) & 1) << 2) | (((b >> 1) & 1) << 1) | ((b >> 0) & 1)
  {
  }

  /** Reading the eight digits back gives the byte. */
  lemma BitsRoundTrip(b: bv8)
    ensures FromBits(Bits(b)) == b
  {
    var r := Bits(b);
    forall k | 0 <= k < 8
      ensures Bit(r[k]) == (b >> (7 - k)) & 1
    {
      assert r[k] == BitDigit(b, 7 - k);
    }
    BitsRecombine(b);
  }

  /** `toBinaryBytes`: every byte as its eight binary digits, in order. */
  function ToBinaryBytes(s: seq<bv8>): (r: seq<bv8>)
    ensures |r| == 8 * |s|
    ensures forall k :: 0 <= k < |r| ==> r[k] == Zero || r[k] == One
  {
    seq(8 * |s|, k requires 0 <= k < 8 * |s| => Bits(s[k / 8])[k % 8])
  }

  /** Digit `k` of byte `i`'s rendering is bit `7 - k` of the byte. */
  lemma BinaryDigitAt(s: seq<bv8>, i: nat, k: nat)
    requires i < |s| && k < 8
    ensures ToBinaryBytes(s)[8 * i + k] == Bits(s[i])[k] == BitDigit(s[i], 7 - k)
  {
    assert (8 * i + k) / 8 == i && (8 * i + k) % 8 == k;
  }

  /** Each byte is rendered as exactly its own eight digits, most significant first. */
  lemma BinaryBlocks(s: seq<bv8>, i: nat)
    requires i < |s|
    ensures ToBinaryBytes(s)[8 * i..8 * i + 8] == Bits(s[i])
  {
    forall k | 0 <= k < 8
      ensures ToBinaryBytes(s)[8 * i..8 * i + 8][k] == Bits(s[i])[k]
    {
      BinaryDigitAt(s, i, k);
    }
  }

  /** The bytes a run of binary digits denotes, eight digits per byte. */
  function FromBinary(r: seq<bv8>): seq<bv8>
    requires |r| % 8 == 0
  {
    seq(|r| / 8, i requires 0 <= i < |r| / 8 => FromBits(r[8 * i..8 * i + 8]))
  }

  /** The binary rendering loses nothing. */
  lemma BinaryRoundTrip(s: seq<bv8>)
    ensures FromBinary(ToBinaryBytes(s)) == s
  {
    var r := ToBinaryBytes(s);
    forall i | 0 <= i < |s|
      ensures FromBinary(r)[i] == s[i]
    {
      BinaryBlocks(s, i);
      BitsRoundTrip(s[i]);
    }
  }

  // ---------------------------------------------------------------------------
  // The challenge and its acceptance
  // ---------------------------------------------------------------------------

  /** "aod^" */
  const ChallengePrefix: seq<bv8> := [0x61, 0x6f, 0x64, 0x5e]
  /** "^" */
  const Caret: bv8 := 0x5e

  /** The text whose hash is compared with the wanted prefix: `"aod^" + nonce + "^" + key`. */
  function Challenge(nonce: seq<bv8>, key: seq<bv8>): (c: seq<bv8>)
    ensures |c| == |nonce| + |key| + 5
    ensures c[..4] == ChallengePrefix && c[4..4 + |nonce|] == nonce
    ensures c[4 + |nonce|] == Caret && c[5 + |nonce|..] == key
  {
    ChallengePrefix + nonce + [Caret] + key
  }

  /**
   * Hex nonces never contain '^', so the challenge text determines both the
   * nonce and the key.
   */
  lemma ChallengeInjective(n1: seq<bv8>, k1: seq<bv8>, n2: seq<bv8>, k2: seq<bv8>)
    requires forall i :: 0 <= i < |n1| ==> IsLowerHex(n1[i])
    requires forall i :: 0 <= i < |n2| ==> IsLowerHex(n2[i])
    requires Challenge(n1, k1) == Challenge(n2, k2)
    ensures n1 == n2 && k1 == k2
  {
    var c := Challenge(n1, k1);
    assert IsLowerHex(c[4 + |n1|]) ==> |n1| < |n2|;
    assert IsLowerHex(c[4 + |n2|]) ==> |n2| < |n1|;
  }

  /** The longest bit prefix `solvePow` can compare: 64 hex digits of 8 bits. */
  const MaxWanted: nat := 512

  /**
   * A nonce is accepted when the first `|wanted|` binary digits of the hex of
   * the challenge's hash spell `wanted`.
   */
  predicate Accepts(key: seq<bv8>, wanted: seq<bv8>, nonce: seq<bv8>, sha256: seq<bv8> -> Digest) {
    |wanted| <= MaxWanted && ToBinaryBytes(HexEncode(sha256(Challenge(nonce, key))))[..|wanted|] == wanted
  }

  /**
   * The inner bit loop of `solvePow` for one hex byte `b`: its bits, most
   * significant first, go to positions `idx`, `idx + 1`, ... and the loop
   * stops once at least `wantedLen` digits are written. The positions before
   * `idx` keep their digits.
   */
  method WriteBits(binBuf: seq<bv8>, idx: nat, b: bv8, wantedLen: nat) returns (out: seq<bv8>, next: nat)
    requires idx + 8 <= |binBuf|
    ensures |out| == |binBuf|
    ensures next == if idx + 8 <= wantedLen then idx + 8 else if wantedLen <= idx then idx + 1 else wantedLen
    ensures forall k :: 0 <= k < idx ==> out[k] == binBuf[k]
    ensures forall k :: idx <= k < next ==> out[k] == BitDigit(b, 7 - (k - idx))
  {
    out := binBuf;
    next := idx;
    var j := 7;
    while j >= 0
      invariant -1 <= j <= 7 && next == idx + (7 - j) && |out| == |binBuf|
      invariant j < 7 ==> next < wantedLen
      invariant forall k :: 0 <= k < idx ==> out[k] == binBuf[k]
      invariant forall k :: idx <= k < next ==> out[k] == BitDigit(b, 7 - (k - idx))
    {
      out := out[next := BitDigit(b, j)];
      next := next + 1;
      if next >= wantedLen {
        return;
      }
      j := j - 1;
    }
  }

  /**
   * The bit loop of `solvePow`: it walks the 64 hex bytes most significant
   * bit first into a 512-byte buffer and stops once `wantedLen` digits are
   * written. The buffer's first `wantedLen` bytes are then the binary
   * rendering's first `wantedLen` digits.
   */
  method BitPrefix(hexBuf: seq<bv8>, wantedLen: nat) returns (binBuf: seq<bv8>)
    requires |hexBuf| == 64
    ensures |binBuf| == MaxWanted
    ensures wantedLen <= MaxWanted ==> binBuf[..wantedLen] == ToBinaryBytes(hexBuf)[..wantedLen]
    ensures wantedLen > MaxWanted ==> binBuf == ToBinaryBytes(hexBuf)
  {
    ghost var bits := ToBinaryBytes(hexBuf);
    binBuf := seq(MaxWanted, k => 0);
    var idx := 0;
    var i := 0;
    while i < 64
      invariant 0 <= i <= 64 && idx == 8 * i && |binBuf| == MaxWanted
      invariant i > 0 ==> idx < wantedLen
      invariant forall k :: 0 <= k < idx ==> binBuf[k] == bits[k]
    {
      var next;
      binBuf, next := WriteBits(binBuf, idx, hexBuf[i], wantedLen);
      forall k | idx <= k < next
        ensures binBuf[k] == bits[k]
      {
        BinaryDigitAt(hexBuf, i, k - idx);
      }
      idx := next;
      if idx >= wantedLen {
        assert wantedLen <= idx <= |bits|;
        assert forall k | 0 <= k < wantedLen :: binBuf[..wantedLen][k] == binBuf[k] == bits[k] == bits[..wantedLen][k];
        return;
      }
      i := i + 1;
    }
    assert binBuf == bits;
  }

  /** How one run of `solvePow` over the supplied attempts ends. */
  datatype SolveOutcome =
    | Solved(nonce: seq<bv8>)
    | OutOfAttempts
    | Panicked

  /**
   * `solvePow`: each attempt's random bytes become a hex nonce, and the first
   * accepted nonce is returned. A `wanted` longer than 512 digits makes Go
   * slice past the buffer on the first attempt and panic.
   */
  method SolvePow(key: seq<bv8>, wanted: seq<bv8>, attempts: seq<seq<bv8>>, sha256: seq<bv8> -> Digest)
    returns (r: SolveOutcome)
    ensures r.Panicked? <==> |wanted| > MaxWanted && |attempts| > 0
    ensures r.Solved? ==>
      exists i :: 0 <= i < |attempts| && r.nonce == HexEncode(attempts[i])
        && Accepts(key, wanted, r.nonce, sha256)
        && (forall j :: 0 <= j < i ==> !Accepts(key, wanted, HexEncode(attempts[j]), sha256))
    ensures r.OutOfAttempts? ==> forall i :: 0 <= i < |attempts| ==> !Accepts(key, wanted, HexEncode(attempts[i]), sha256)
  {
    var n := 0;
    while n < |attempts|
      invariant 0 <= n <= |attempts|
      invariant n > 0 ==> |wanted| <= MaxWanted
      invariant forall j :: 0 <= j < n ==> !Accepts(key, wanted, HexEncode(attempts[j]), sha256)
    {
      var nonce := HexEncode(attempts[n]);
      var hash := sha256(Challenge(nonce, key));
      var hexBuf := HexEncode(hash);
      var binBuf := BitPrefix(hexBuf, |wanted|);
      if |wanted| > MaxWanted {
        return Panicked;
      }
      if binBuf[..|wanted|] == wanted {
        return Solved(nonce);
      }
      n := n + 1;
    }
    return OutOfAttempts;
  }

  // ---------------------------------------------------------------------------
  // Uploader set-up (`newHTTPUploaderPow`)
  // ---------------------------------------------------------------------------

  /** The base URL with `https+pow` and then `http+pow` turned into plain schemes. */
  function RewriteBaseUrl(url: string): string {
    GoText.ReplaceAll(GoText.ReplaceAll(url, "https+pow", "https"), "http+pow", "http")
  }

  /** A URL without '+' is left as it is. */
  lemma RewritePlainUrl(url: string)
    requires '+' !in url
    ensures RewriteBaseUrl(url) == url
  {
    assert "https+pow"[5] == '+' && "http+pow"[4] == '+';
    GoText.AbsentCharNoMatch(url, "https+pow", 5);
    GoText.ReplaceAllAbsent(url, "https+pow", "https");
    GoText.AbsentCharNoMatch(url, "http+pow", 4);
    GoText.ReplaceAllAbsent(url, "http+pow", "http");
  }

  /** `https+pow` + rest becomes `https` + rest when the rest has no '+'. */
  lemma RewriteHttpsPow(rest: string)
    requires '+' !in rest
    ensures RewriteBaseUrl("https+pow" + rest) == "https" + rest
  {
    var url := "https+pow" + rest;
    assert url[..9] == "https+pow" && url[9..] == rest;
    assert "https+pow"[5] == '+';
    GoText.AbsentCharNoMatch(rest, "https+pow", 5);
    GoText.ReplaceAllAbsent(rest, "https+pow", "https");
    assert GoText.ReplaceAll(url, "https+pow", "https") == "https" + rest;
    assert '+' !in "https" + rest by {
      assert forall k :: 0 <= k < |"https" + rest| ==> ("https" + rest)[k] == if k < 5 then "https"[k] else rest[k - 5];
    }
    assert "http+pow"[4] == '+';
    GoText.AbsentCharNoMatch("https" + rest, "http+pow", 4);
    GoText.ReplaceAllAbsent("https" + rest, "http+pow", "http");
  }

  /** `http+pow` + rest becomes `http` + rest when the rest has no '+'. */
  lemma RewriteHttpPow(rest: string)
    requires '+' !in rest
    ensures RewriteBaseUrl("http+pow" + rest) == "http" + rest
  {
    var url := "http+pow" + rest;
    assert "https+pow"[5] == '+';
    forall k | 0 <= k <= |url| - 9
      ensures !GoText.OccursAt(url, "https+pow", k)
    {
      assert url[k + 5] == url[k..k + 9][5];
      if k + 5 < 8 {
        assert url[k + 5] == "http+pow"[k + 5];
      } else {
        assert url[k + 5] == rest[k + 5 - 8];
      }
    }
    GoText.ReplaceAllAbsent(url, "https+pow", "https");
    assert url[..8] == "http+pow" && url[8..] == rest;
    assert "http+pow"[4] == '+';
    GoText.AbsentCharNoMatch(rest, "http+pow", 4);
    GoText.ReplaceAllAbsent(rest, "http+pow", "http");
  }

  /**
   * The processor cap: without `NoCPULimit` the uploader keeps a quarter of
   * the CPUs, rounded down, and at least one; with it nothing is capped.
   */
  function Procs(numCPU: nat, noCPULimit: bool): (r: Option<nat>)
    ensures noCPULimit <==> r.None?
    ensures r.Some? ==> r.value >= 1 && (r.value == 1 || 4 * r.value <= numCPU)
    ensures r.Some? ==> 4 * r.value > numCPU - 4
  {
    if noCPULimit then None
    else
      var procs := numCPU / 4;
      if procs < 1 then Some(1) else Some(procs)
  }
}

=== FILE: wrappers.dfy ===
/** Small failure-carrying wrappers shared by the whole model. */
module Wrappers {

  /** A value that may be absent: Go's nil pointer, or a `return` without result. */
  datatype Option<+T> = None | Some(value: T) {

    /** The wrapped value, or `default` when there is none. */
    function GetOr(default: T): T {
      match this
      case Some(v) => v
      case None => default
    }
  }

  /** Go's `(value, error)` pair when exactly one of the two is meaningful. */
  datatype Result<+T, +E> = Success(value: T) | Failure(error: E)
}
